=== FILE: README.md ===
# XMLUtil tree editing, modelled in Dafny

This project models the part of `XMLUtil` that queries and edits an in-memory DOM
tree. The operations covered are:

- `checkTagExists`, `getElements` and the two `getTagValue` overloads;
- `replaceTagValue`, `insertTagValue`, `insertTagInElement` and `insertNewTagBelow`;
- `insertOrUpdateTagValue`, `deleteTag` and `addAttributeToElement`;
- the tree that `mapToXml` builds before it serialises it.

`checkTagExists`, `getElements`, `getTagValue(Element, String)`, `replaceTagValue`,
`insertNewTagBelow`, `insertOrUpdateTagValue` and `deleteTag` rest on the DOM search
`getElementsByTagName`. It returns elements in document order (preorder), and the
name `"*"` selects every element. The other operations never search.

The tree is an immutable value:

- `Node` is an element (tag name, attribute map, ordered children) or a text node.
- A text node's data may be Java `null`.
- A `Document` holds an optional document element.
- A node is identified by its path of child indices from the document element.

Each Java method changes its `Document` in place. Here each one returns the changed
document instead.

A Java failure is a `NullPointerException`. It becomes `Err(error, state)`, where
`state` is the document as it stood when the exception was thrown. There is no
rollback.

`replaceTagValue` and `deleteTag` read the length of a live `NodeList` once, then
index into it while changing the tree. The model therefore computes the list again
on every iteration, and an index past its end is `Err(MissingListItem(i), …)`.

Modules:

- `Dom` (dom.dfy): nodes, paths, the one-step DOM edits and their frame lemma.
- `Search` (search.dfy): `getElementsByTagName` and its document order.
- `Queries` (queries.dfy): the read-only operations.
- `Mutators` (mutators.dfy): the mutating operations, as written.
- `MapToXml` (maptoxml.dfy): the tree `mapToXml` builds.
- `Corrected` (corrected.dfy): evidently intended versions of `deleteTag` and `replaceTagValue`.

## Model

| member | source | states |
|---|---|---|
| Search.MatchesExactly | src/main/java/org/xmlutils/util/XMLUtil.java:97 | A document's search for a tag lists a path exactly when that path leads to an element with that tag name. With `"*"` it lists every element, and the document element is included. |
| Search.DescendantsExactly | src/main/java/org/xmlutils/util/XMLUtil.java:267 | An element's search lists exactly its proper descendants that are selected. The element itself is never listed. |
| Search.MatchesSorted | src/main/java/org/xmlutils/util/XMLUtil.java:67 | The search result is strictly ordered by document order (preorder), so it has no duplicates. |
| Search.NothingBeforeFirstMatch | src/main/java/org/xmlutils/util/XMLUtil.java:120 | `item(0)` of the search is the first selected element in document order: no selected node precedes it. |
| Queries.CheckTagExists | src/main/java/org/xmlutils/util/XMLUtil.java:95-102 | True exactly when the document has some element selected by the tag. |
| Queries.GetElements | src/main/java/org/xmlutils/util/XMLUtil.java:266-280 | Returns one element per selected proper descendant of `input`, in document order, and each returned element is selected. The node-type filter drops nothing. |
| Queries.GetTagValueOfNode | src/main/java/org/xmlutils/util/XMLUtil.java:219-232 | The buffer loop computes the tag value: the node values of all children, joined in order. A node without children gives "". |
| Queries.ChildValuesConcat | src/main/java/org/xmlutils/util/XMLUtil.java:226-228 | The value of a split child list is the value of the first part followed by the value of the second. |
| Queries.ChildValuesEach | src/main/java/org/xmlutils/util/XMLUtil.java:226-228 | The tag value is the concatenation of each child's rendered node value. A text child gives its data; an element child or null data gives "null". |
| Queries.ThreeTextChildren | src/main/java/org/xmlutils/util/XMLUtil.java:219-232 | Text children "a", "b", "c" give "abc": every child is included, with no separator, not just the first child. |
| Queries.ElementChildReadsNull | src/main/java/org/xmlutils/util/XMLUtil.java:227 | An element child has a null node value, and `StringBuffer.append` writes it as "null". |
| Queries.GetTagValue | src/main/java/org/xmlutils/util/XMLUtil.java:198-207 | Null exactly when the element is null or has no selected proper descendant. Otherwise it is the tag value of a selected descendant that no other selected descendant precedes in document order. |
| Mutators.ReplaceStepEffect | src/main/java/org/xmlutils/util/XMLUtil.java:71-77 | One iteration gives the visited element the new text node as first child. If the element had no children the node is added; otherwise it replaces the first child and the later children stay. Name and attributes stay. Nodes off the element's ancestor/descendant line are unchanged, and ancestors keep name, attributes and child count. |
| Mutators.ReplaceStepKeepsSelection | src/main/java/org/xmlutils/util/XMLUtil.java:71-77 | An iteration changes no node's selection outside the visited element's proper subtree. |
| Mutators.ReplaceLoopKeepsTopmost | src/main/java/org/xmlutils/util/XMLUtil.java:70-78 | A selected element with no selected ancestor is still present and selected when the loop ends, whether or not the loop failed. |
| Mutators.ReplaceTagValue | src/main/java/org/xmlutils/util/XMLUtil.java:65-79 | Without a match the document is unchanged and the call succeeds. With a match, the tag still exists afterwards even if the loop failed. The only possible failure is a missing list item. |
| Mutators.InsertTagValue | src/main/java/org/xmlutils/util/XMLUtil.java:148-156 | Fails, leaving the document unchanged, exactly when there is no document element. Otherwise the new element `tagName` becomes the last child of the document element. It holds one text node when the value is non-null and is empty otherwise. Earlier children, name and attributes stay. |
| Mutators.InsertTagValueAddsLastMatch | src/main/java/org/xmlutils/util/XMLUtil.java:148-156 | The document's search afterwards is the old search plus the new element at the end, so the tag exists afterwards. |
| Mutators.InsertTagInElement | src/main/java/org/xmlutils/util/XMLUtil.java:169-175 | The new element, holding a text node even for a null value, becomes the last child of the given element. The parent's earlier children, name and attributes stay. |
| Mutators.InsertTagInElementFrame | src/main/java/org/xmlutils/util/XMLUtil.java:169-175 | No node except the parent, its ancestors and the new element changes. The parent's proper ancestors keep their tag name, attributes and child count. |
| Mutators.InsertTagInElementAddsOne | src/main/java/org/xmlutils/util/XMLUtil.java:171-173 | The document gains exactly one element selected by `tagName`. The new element's tag value is the rendered value ("null" for null). |
| Mutators.InsertNewTagBelow | src/main/java/org/xmlutils/util/XMLUtil.java:118-128 | When `appendTo` is found, the new element goes below the first match in document order, exactly as `insertTagInElement` would put it. Otherwise its parent is a fresh element that is never attached, and the document is unchanged. |
| Mutators.InsertNewTagBelowCount | src/main/java/org/xmlutils/util/XMLUtil.java:118-128 | The new element is reachable from the document exactly when a parent was found: the count of `tagName` elements rises by one. Otherwise the search is unchanged. |
| Mutators.AddAttributeToElement | src/main/java/org/xmlutils/util/XMLUtil.java:130-135 | The element gains the attribute, or has its value overwritten. Other attributes, its name and its children stay. |
| Mutators.AddAttributeFrame | src/main/java/org/xmlutils/util/XMLUtil.java:130-135 | No search result changes, and no node off the element's ancestor/descendant line changes. The element's proper ancestors keep their tag name, attributes and child count. |
| Mutators.InsertOrUpdateTagValue | src/main/java/org/xmlutils/util/XMLUtil.java:177-184 | It is `replaceTagValue` when the tag exists. When the tag is missing and there is a document element, it gives the document `insertTagValue` builds. Afterwards the tag exists whenever it existed before or there is a document element. Otherwise the call fails on the missing document element and changes nothing. |
| Mutators.InsertOrUpdateTwice | src/main/java/org/xmlutils/util/XMLUtil.java:177-184 | Two calls on a document without the tag leave one new last child `<tagName>second</tagName>` under the document element, and nothing else changes. |
| Mutators.RemoveNodeEffect | src/main/java/org/xmlutils/util/XMLUtil.java:249-251 | Removing a non-root node takes exactly that child out of its parent, and later siblings move up. Nodes outside the parent's subtree do not change, and ancestors keep name, attributes and child count. |
| Mutators.RemoveNodeCount | src/main/java/org/xmlutils/util/XMLUtil.java:249-251 | Removing a node removes exactly its own selected nodes from the document's search count. |
| Mutators.DeleteLoopFails | src/main/java/org/xmlutils/util/XMLUtil.java:248-252 | Once the index is at least 1 and the live list is no longer than the remaining iterations, the loop ends on a missing list item. The failing index is at least the current one, and it is the current one or at most half the bound, rounded up. |
| Mutators.DeleteTagOutcome | src/main/java/org/xmlutils/util/XMLUtil.java:243-253 | `deleteTag` as written. With no match it succeeds and changes nothing. With one match it removes that element and no match remains. With two or more it always fails on a missing list item, at an index between 1 and half the match count, rounded up. |
| MapToXml.MapToXmlTree | src/main/java/org/xmlutils/util/XMLUtil.java:347-359 | The root `rootName` has no attributes and one empty `childName` child per entry, in entry order. Each child has exactly the attributes `keyName` and `valueName`, carrying the entry's value and (when the names differ) its key. |
| MapToXml.EntriesInDocumentOrder | src/main/java/org/xmlutils/util/XMLUtil.java:353-356 | Searching the built document for `childName` finds the entries' elements in entry order. This holds when `childName` is neither the root's name nor `"*"`. |
| MapToXml.TwoEntries | src/main/java/org/xmlutils/util/XMLUtil.java:344-362 | `{k1=v1, k2=v2}` with `root`/`entry`/`key`/`value` builds `<root><entry key="k1" value="v1"/><entry key="k2" value="v2"/></root>`. |
| Corrected.Prune | src/main/java/org/xmlutils/util/XMLUtil.java:243-253 | Removing every selected proper descendant keeps the node's name and attributes and leaves no selected proper descendant. A node without any is unchanged. |
| Corrected.DeleteAll | src/main/java/org/xmlutils/util/XMLUtil.java:243-253 | The evidently intended `deleteTag`: afterwards the tag no longer exists, and a document without the tag is unchanged. |
| Corrected.DeleteTwoSiblingsFails | src/main/java/org/xmlutils/util/XMLUtil.java:243-253 | On `<r><x/><x/></r>`, `deleteTag` as written fails, while `DeleteAll` gives `<r/>`. |
| Corrected.DeleteNestedRootFails | src/main/java/org/xmlutils/util/XMLUtil.java:248-251 | On `<x><x/></x>`, `deleteTag` as written removes the document element, then fails on `item(1)` of the now empty list, leaving an empty document. |
| Corrected.DeleteThreeSiblingsFails | src/main/java/org/xmlutils/util/XMLUtil.java:243-253 | On `<r><x/><x/><x/></r>`, `deleteTag` as written removes the first and the third child, then fails on `item(2)`, leaving `<r><x/></r>`. |
| Corrected.PruneChildrenKeepsUnselected | src/main/java/org/xmlutils/util/XMLUtil.java:243-253 | Pruning a child list keeps exactly the unselected children, in their order, each with its own selected descendants removed. Selected children disappear whole. |
| Corrected.PruneChildrenConcat | src/main/java/org/xmlutils/util/XMLUtil.java:243-253 | Pruning a split child list prunes each part separately: nothing moves across the split. |
| Corrected.PruneOne | src/main/java/org/xmlutils/util/XMLUtil.java:249-251 | When a node has exactly one selected proper descendant, pruning it is the same as removing that one child from its parent. |
| Corrected.DeleteAllAgreesWithDeleteTag | src/main/java/org/xmlutils/util/XMLUtil.java:243-253 | With at most one match, `deleteTag` as written succeeds and gives exactly the evidently intended result. |
| Corrected.ReplaceAll | src/main/java/org/xmlutils/util/XMLUtil.java:65-79 | The evidently intended `replaceTagValue`, on the given node: it keeps its name and attributes. If selected, it gets the new text as its first child and loses no other children. If unselected, it keeps its child count. |
| Corrected.ReplaceAllSelection | src/main/java/org/xmlutils/util/XMLUtil.java:65-79 | A path is selected afterwards exactly when it was selected before and does not lie in the first child of a selected element. Every element outside those replaced first children keeps its place, name and attributes. |
| Corrected.ReplaceAllValuesEveryMatch | src/main/java/org/xmlutils/util/XMLUtil.java:65-79 | After the corrected replacement, every element selected in the result has the new text node as its first child. |
| Corrected.ReplaceNestedFails | src/main/java/org/xmlutils/util/XMLUtil.java:65-79 | On `<x><x/></x>`, `replaceTagValue` as written fails with `item(1)` missing, leaving `<x>v</x>`. The corrected version gives `<x>v</x>` without failing. |
| Corrected.ReplaceStepMatches | src/main/java/org/xmlutils/util/XMLUtil.java:71-77 | One iteration shortens the live list by exactly the number of matches inside the replaced first child. With none there the list is unchanged. |
| Corrected.ReplaceAllAbsorbsStep | src/main/java/org/xmlutils/util/XMLUtil.java:71-77 | Applying the corrected replacement after one iteration of the loop gives the same tree as applying it directly. |
| Corrected.ReplaceLoopNestedFails | src/main/java/org/xmlutils/util/XMLUtil.java:70-78 | If a match still to be visited holds another match in its first child, the loop ends on a missing list item. |
| Corrected.ReplaceLoopClean | src/main/java/org/xmlutils/util/XMLUtil.java:70-78 | Without nested matches the loop succeeds. Each match gets the new text as first child, and the result is a fixed point with the same corrected replacement as the input. |
| Corrected.ReplaceTagValueAgreesWithReplaceAll | src/main/java/org/xmlutils/util/XMLUtil.java:65-79 | `replaceTagValue` as written succeeds exactly when no match lies in the first child of another match. Then its result is exactly the evidently intended one. |

## Left out

- Parsing (`convertFileToDom`, `convertStringToDom`), serialisation, pretty printing and file writing: these are I/O through the JAXP parser and transformer, outside the tree logic.
- The shared `DocumentBuilderFactory` and the wrapping of checked exceptions: configuration, not tree logic.
- Namespaces, comments, CDATA sections, processing instructions and entity references: the tree has only elements and text nodes.
- The identity of `Attr` objects: `addAttributeToElement` is modelled by its effect, one key/value pair in the element's attribute map.
- The name checks in `createElement`, `createAttribute` (`addAttributeToElement`) and `setAttribute` (`mapToXml`): an illegal XML name (`INVALID_CHARACTER_ERR`) is not modelled. Every string is accepted as a tag or attribute name.
- Null `Document` or `Element` arguments, and a null `map` for `mapToXml` (whose `entrySet()` call then throws): Java dereferences them without a check. Only the null element of `getTagValue(Element, String)` is handled in the source, and only it is modelled.
- Null names (`tagName`, `appendTo`, `attributeName`, `keyName`, `valueName`): names are non-null strings here. In Java, `getElementsByTagName(null)` throws once it reaches an element, and `createElement(null)` or `createAttribute(null)` rejects the name. These failures are not modelled.
- A null `attributeValue` for `addAttributeToElement`: Java hands it on to `Attr.setValue`. Attribute values are non-null strings here, so that case is not modelled.
- Elements passed in by the caller that are not part of the document: an element is a position in the document.
- Java `Map` iteration order and `toString()` of keys and values: `mapToXml` takes its entries as a sequence of string pairs already in iteration order, and a null key or value (a `NullPointerException`) is not modelled.
- Mutators.ReplaceTagValue: its own contract does not describe the whole final tree. It states the per-iteration effect (`ReplaceStepEffect`), the survival of the topmost match, and the possible error. The outcome of a successful call, and exactly when the call succeeds, are stated by `Corrected.ReplaceTagValueAgreesWithReplaceAll`. The tree a failing call leaves behind is described only by `ReplaceLoopKeepsTopmost` and the example `Corrected.ReplaceNestedFails`.
- Removing the document element: in DOM the document element's parent is the `Document`, and `removeChild` on it succeeds, so the removal itself does not throw. When the document element is the only match, `deleteTag` succeeds and leaves an empty document. When there are more matches, the loop still fails afterwards (`Corrected.DeleteNestedRootFails`: `<x><x/></x>` ends with `item(1)` missing and an empty document). The model follows the code here.
- The doc comment of `getTagValue(Node)` speaks of the first child and of returning null. The code concatenates all children and never returns null, and the model follows the code.

## Findings

| source | as written | input that shows it | evidently intended | confidence | as-written member | corrected member |
|---|---|---|---|---|---|---|
| src/main/java/org/xmlutils/util/XMLUtil.java:243-253 | The loop bound `j` is read once. Each `removeChild` shrinks the live list by at least one while `i` grows by one. So with two or more matches `item(i)` becomes null at some `i` between 1 and half the match count, rounded up (index 2 for three siblings), and `getParentNode()` on it throws. | a document `<r><x/><x/></r>` and tag `x` | every element named `tagName` is removed | not executed | Mutators.DeleteTagOutcome | Corrected.DeleteAllAgreesWithDeleteTag |
| src/main/java/org/xmlutils/util/XMLUtil.java:65-79 | Replacing the first child of a match can detach a later match that sits inside that child. The live list shrinks, `item(i)` becomes null, and `getFirstChild()` on it throws. | a document `<x><x/></x>`, tag `x`, value `v` | every match still in the tree gets `v` as its first child, without failing | not executed | Corrected.ReplaceNestedFails | Corrected.ReplaceTagValueAgreesWithReplaceAll |

=== FILE: corrected.dfy ===
/**
 What `deleteTag` and `replaceTagValue` evidently mean to do, without the fixed
 loop bound that makes them fail on a live `NodeList`. Each is shown next to
 an input on which the version as written fails.
 */
module Corrected {
  import opened Dom
  import opened Search
  import opened Queries
  import opened Mutators

  lemma NoMatchesBelow(n: Node, tagName: string)
    requires n.Element?
    ensures Descendants(n, tagName) == [] <==>
      forall k :: 0 <= k < |n.children| ==> Matches(n.children[k], tagName) == []
  {
    var bs := Blocks(n, tagName);
    if Descendants(n, tagName) == [] {
      forall k | 0 <= k < |n.children|
        ensures Matches(n.children[k], tagName) == []
      {
        if Matches(n.children[k], tagName) != [] {
          FlattenMember(bs, bs[k][0]);
        }
      }
    } else {
      var x := Descendants(n, tagName)[0];
      FlattenMember(bs, x);
    }
  }

  // ---------------------------------------------------------------------------
  // deleteTag, corrected

  /** `n` without the subtrees of its selected proper descendants. */
  function Prune(n: Node, tagName: string): (r: Node)
    ensures r.Element? == n.Element? && (n.Element? ==> r.name == n.name && r.attrs == n.attrs)
    ensures Descendants(r, tagName) == []
    ensures Descendants(n, tagName) == [] ==> r == n
    decreases n, 1
  {
    if n.Text? then n
    else
      var r := n.(children := PruneChildren(n.children, tagName));
      NoMatchesBelow(r, tagName);
      NoMatchesBelow(n, tagName);
      r
  }

  /** The children that are not selected, each pruned in turn. */
  function PruneChildren(cs: seq<Node>, tagName: string): (r: seq<Node>)
    ensures forall k :: 0 <= k < |r| ==> Matches(r[k], tagName) == []
    ensures (forall k :: 0 <= k < |cs| ==> Matches(cs[k], tagName) == []) ==> r == cs
    decreases cs, 0
  {
    if cs == [] then []
    else
      var rest := PruneChildren(cs[1..], tagName);
      if IsMatch(cs[0], tagName) then rest
      else
        var head := Prune(cs[0], tagName);
        assert Matches(head, tagName) == [];
        assert forall k :: 0 <= k < |cs[1..]| ==> cs[1..][k] == cs[k + 1];
        [head] + rest
  }

  /** `deleteTag` as evidently intended: every selected element is removed, with its
      subtree. Afterwards the tag no longer exists, and a document without the tag
      is left as it was. */
  function DeleteAll(d: Document, tagName: string): (r: Document)
    ensures !CheckTagExists(r, tagName)
    ensures !CheckTagExists(d, tagName) ==> r == d
  {
    if d.root.None? then d
    else if IsMatch(d.root.value, tagName) then Document(None)
    else
      var r := Prune(d.root.value, tagName);
      MatchesExactly(d.root.value, tagName, []);
      assert CheckTagExists(d, tagName) <==> |Matches(d.root.value, tagName)| > 0;
      Document(Some(r))
  }

  /** Pruning a list of children works piece by piece. */
  lemma {:induction false} PruneChildrenConcat(a: seq<Node>, b: seq<Node>, tagName: string)
    ensures PruneChildren(a + b, tagName) == PruneChildren(a, tagName) + PruneChildren(b, tagName)
    decreases |a|
  {
    if a == [] {
      assert a + b == b;
    } else {
      assert (a + b)[0] == a[0];
      assert (a + b)[1..] == a[1..] + b;
      PruneChildrenConcat(a[1..], b, tagName);
    }
  }

  /** What stays: the children that are not selected, in their order, each pruned. */
  lemma {:induction false} PruneChildrenKeepsUnselected(cs: seq<Node>, tagName: string)
    ensures PruneChildren(cs, tagName) ==
      Flatten(seq(|cs|, k requires 0 <= k < |cs| => if IsMatch(cs[k], tagName) then [] else [Prune(cs[k], tagName)]))
    decreases |cs|
  {
    if cs != [] {
      var parts := seq(|cs|, k requires 0 <= k < |cs| => if IsMatch(cs[k], tagName) then [] else [Prune(cs[k], tagName)]);
      var tl := cs[1..];
      PruneChildrenKeepsUnselected(tl, tagName);
      assert parts[1..] == seq(|tl|, k requires 0 <= k < |tl| => if IsMatch(tl[k], tagName) then [] else [Prune(tl[k], tagName)]);
    }
  }

  /** When `p` is the only selected proper descendant, no other child holds a match. */
  lemma OtherChildrenUnselected(n: Node, tagName: string, p: Path, j: nat)
    requires p != [] && MatchAt(n, p, tagName)
    requires forall q :: q != [] && MatchAt(n, q, tagName) ==> q == p
    requires j < |n.children| && j != p[0]
    ensures Matches(n.children[j], tagName) == []
  {
    var c := n.children[j];
    var ms := Matches(c, tagName);
    if ms != [] {
      var s := ms[0];
      MatchesExactly(c, tagName, s);
      MatchAtChild(n, j, s, tagName);
    }
  }

  /** Children that hold no match are kept as they are. */
  lemma PruneUnselectedSlice(cs: seq<Node>, lo: nat, hi: nat, tagName: string)
    requires lo <= hi <= |cs|
    requires forall j :: lo <= j < hi ==> Matches(cs[j], tagName) == []
    ensures PruneChildren(cs[lo..hi], tagName) == cs[lo..hi]
  {
    var part := cs[lo..hi];
    forall i | 0 <= i < |part|
      ensures Matches(part[i], tagName) == []
    {
      assert part[i] == cs[lo + i];
    }
  }

  lemma SplitAround<T>(cs: seq<T>, k: nat)
    requires k < |cs|
    ensures cs == cs[..k] + ([cs[k]] + cs[k + 1..])
  {
  }

  /** Pruning children of which only the `k`-th holds a match touches only that child. */
  lemma PruneAround(cs: seq<Node>, k: nat, tagName: string)
    requires k < |cs|
    requires forall j :: 0 <= j < |cs| && j != k ==> Matches(cs[j], tagName) == []
    ensures PruneChildren(cs, tagName) ==
      cs[..k] + ((if IsMatch(cs[k], tagName) then [] else [Prune(cs[k], tagName)]) + cs[k + 1..])
  {
    var c := cs[k];
    var before, after := cs[..k], cs[k + 1..];
    var mid := if IsMatch(c, tagName) then [] else [Prune(c, tagName)];
    assert PruneChildren(before, tagName) == before by {
      PruneUnselectedSlice(cs, 0, k, tagName);
      assert cs[0..k] == before;
    }
    assert PruneChildren(after, tagName) == after by {
      PruneUnselectedSlice(cs, k + 1, |cs|, tagName);
      assert cs[k + 1..|cs|] == after;
    }
    assert PruneChildren([c], tagName) == mid by {
      assert [c][1..] == [];
    }
    assert PruneChildren([c] + after, tagName) == mid + after by {
      PruneChildrenConcat([c], after, tagName);
    }
    assert PruneChildren(before + ([c] + after), tagName) == before + (mid + after) by {
      PruneChildrenConcat(before, [c] + after, tagName);
    }
    SplitAround(cs, k);
  }

  lemma UpdateAsSplit<T>(cs: seq<T>, k: nat, x: T)
    requires k < |cs|
    ensures cs[..k] + ([x] + cs[k + 1..]) == cs[k := x]
    ensures cs[..k] + ([] + cs[k + 1..]) == cs[..k] + cs[k + 1..]
  {
  }

  /** The parent of a path of length two or more, seen from the first child. */
  lemma ParentPath(p: Path)
    requires |p| > 1
    ensures p[..|p| - 1] != [] && p[..|p| - 1][0] == p[0]
    ensures p[..|p| - 1][1..] == p[1..][..|p[1..]| - 1]
    ensures p[1..][|p[1..]| - 1] == p[|p| - 1]
  {
  }

  /** Pruning children of which only the `k`-th holds a match: a selected `k`-th child
      is dropped, an unselected one is pruned in place. */
  lemma PruneAtOnlyChild(n: Node, tagName: string, k: nat)
    requires n.Element? && k < |n.children|
    requires forall j :: 0 <= j < |n.children| && j != k ==> Matches(n.children[j], tagName) == []
    ensures IsMatch(n.children[k], tagName) ==>
      Prune(n, tagName) == n.(children := n.children[..k] + n.children[k + 1..])
    ensures !IsMatch(n.children[k], tagName) ==>
      Prune(n, tagName) == n.(children := n.children[k := Prune(n.children[k], tagName)])
  {
    PruneAround(n.children, k, tagName);
    UpdateAsSplit(n.children, k, Prune(n.children[k], tagName));
  }

  /** An edit below child `k` is that edit inside child `k`. */
  lemma EditBelowChild(n: Node, p: Path, e: Edit)
    requires |p| > 1 && CanEditAt(n, p[..|p| - 1], e)
    ensures n.Element? && p[0] < |n.children|
    ensures CanEditAt(n.children[p[0]], p[1..][..|p[1..]| - 1], e)
    ensures EditAt(n, p[..|p| - 1], e) ==
      n.(children := n.children[p[0] := EditAt(n.children[p[0]], p[1..][..|p[1..]| - 1], e)])
  {
    ParentPath(p);
  }

  /** The selected node is a child of `n`: pruning drops just that child. */
  lemma PruneOneShallow(n: Node, tagName: string, k: nat)
    requires n.Element? && k < |n.children| && IsMatch(n.children[k], tagName)
    requires forall j :: 0 <= j < |n.children| && j != k ==> Matches(n.children[j], tagName) == []
    ensures CanEditAt(n, [], RemoveChild(k))
    ensures Prune(n, tagName) == EditAt(n, [], RemoveChild(k))
  {
    PruneAtOnlyChild(n, tagName, k);
  }

  /** The selected node lies deeper, inside the unselected child `p[0]`: pruning `n`
      is pruning that child in place. */
  lemma PruneOneDeep(n: Node, tagName: string, p: Path)
    requires |p| > 1 && n.Element? && p[0] < |n.children| && !IsMatch(n.children[p[0]], tagName)
    requires forall j :: 0 <= j < |n.children| && j != p[0] ==> Matches(n.children[j], tagName) == []
    requires CanEditAt(n.children[p[0]], p[1..][..|p[1..]| - 1], RemoveChild(p[|p| - 1]))
    requires Prune(n.children[p[0]], tagName) ==
      EditAt(n.children[p[0]], p[1..][..|p[1..]| - 1], RemoveChild(p[|p| - 1]))
    ensures CanEditAt(n, p[..|p| - 1], RemoveChild(p[|p| - 1]))
    ensures Prune(n, tagName) == EditAt(n, p[..|p| - 1], RemoveChild(p[|p| - 1]))
  {
    PruneAtOnlyChild(n, tagName, p[0]);
    ParentPath(p);
    EditBelowChild(n, p, RemoveChild(p[|p| - 1]));
  }

  /** With exactly one selected proper descendant, at `p`, pruning removes just that
      node from its parent. */
  lemma {:induction false} PruneOne(n: Node, tagName: string, p: Path)
    requires p != [] && MatchAt(n, p, tagName)
    requires forall q :: q != [] && MatchAt(n, q, tagName) ==> q == p
    ensures CanEditAt(n, p[..|p| - 1], RemoveChild(p[|p| - 1]))
    ensures Prune(n, tagName) == EditAt(n, p[..|p| - 1], RemoveChild(p[|p| - 1]))
    decreases p
  {
    ParentAt(n, p);
    var k := p[0];
    var c := n.children[k];
    var rest := p[1..];
    forall j | 0 <= j < |n.children| && j != k
      ensures Matches(n.children[j], tagName) == []
    {
      OtherChildrenUnselected(n, tagName, p, j);
    }
    MatchAtChild(n, k, [], tagName);
    MatchAtChild(n, k, rest, tagName);
    assert [k] + rest == p;
    if |p| == 1 {
      assert p[..|p| - 1] == [];
      PruneOneShallow(n, tagName, k);
    } else {
      assert !MatchAt(n, [k], tagName);
      forall q | q != [] && MatchAt(c, q, tagName)
        ensures q == rest
      {
        MatchAtChild(n, k, q, tagName);
      }
      PruneOne(c, tagName, rest);
      PruneOneDeep(n, tagName, p);
    }
  }

  /** Where `deleteTag` as written succeeds, the corrected version agrees with it. */
  lemma DeleteAllAgreesWithDeleteTag(d: Document, tagName: string)
    requires |DocumentMatches(d, tagName)| <= 1
    ensures DeleteTag(d, tagName).Ok?
    ensures DeleteAll(d, tagName) == DeleteTag(d, tagName).value
  {
    DeleteTagOutcome(d, tagName);
    var ms := DocumentMatches(d, tagName);
    if |ms| == 1 {
      var root := d.root.value;
      var p := ms[0];
      forall q | MatchAt(root, q, tagName)
        ensures q == p
      {
        MatchesExactly(root, tagName, q);
      }
      if p != [] {
        assert !MatchAt(root, [], tagName);
        PruneOne(root, tagName, p);
      }
    }
  }

  /** Two sibling `<x/>` elements are enough to make `deleteTag` as written fail,
      whereas `DeleteAll` removes both. */
  lemma DeleteTwoSiblingsFails()
    ensures
      var d := Document(Some(Element("r", map[], [Element("x", map[], []), Element("x", map[], [])])));
      && DeleteTag(d, "x").Err?
      && DeleteAll(d, "x") == Document(Some(Element("r", map[], [])))
  {
    var x := Element("x", map[], []);
    var root := Element("r", map[], [x, x]);
    var d := Document(Some(root));
    LeafMatches(x, "x");
    assert Prepend(0, [[]]) == [[0]] by { assert [0] + [] == [0]; }
    assert Prepend(1, [[]]) == [[1]] by { assert [1] + [] == [1]; }
    assert Blocks(root, "x") == [Prepend(0, Matches(x, "x")), Prepend(1, Matches(x, "x"))];
    assert Flatten([[[1]]]) == [[1]] + Flatten([]);
    assert Flatten([[[0]], [[1]]]) == [[0]] + Flatten([[[1]]]);
    assert Blocks(root, "x") == [[[0]], [[1]]];
    assert Descendants(root, "x") == [[0], [1]];
    assert Matches(root, "x") == [] + Descendants(root, "x");
    assert |DocumentMatches(d, "x")| == 2;
    DeleteTagOutcome(d, "x");
    assert PruneChildren([x], "x") == [];
  }

  /** Removing the document element does not fail by itself, but when a descendant
      shares its name the live list is empty afterwards and `item(1)` is null. */
  lemma DeleteNestedRootFails()
    ensures DeleteTag(Document(Some(Element("x", map[], [Element("x", map[], [])]))), "x") ==
      Err(MissingListItem(1), Document(None))
  {
    var x := Element("x", map[], []);
    var root := Element("x", map[], [x]);
    var d := Document(Some(root));
    LeafMatches(x, "x");
    assert Prepend(0, [[]]) == [[0]] by { assert [0] + [] == [0]; }
    assert Blocks(root, "x") == [[[0]]];
    assert Flatten([[[0]]]) == [[0]] + Flatten([]);
    assert Matches(root, "x") == [[]] + [[0]];
    assert DocumentMatches(d, "x") == [[], [0]];
    assert RemoveNode(d, []) == Document(None);
    assert DeleteLoop(Document(None), "x", 1, 2) == Err(MissingListItem(1), Document(None));
  }

  /** `<r>` holding `count` empty `<x/>` children: the search for `x` lists them in order. */
  lemma RowOfX(count: nat)
    ensures DocumentMatches(Document(Some(Element("r", map[], seq(count, _ => Element("x", map[], []))))), "x") ==
      seq(count, k requires 0 <= k < count => [k])
  {
    RowOfLeaves(Element("r", map[], seq(count, _ => Element("x", map[], []))), "x");
  }

  /** Three sibling `<x/>`: iteration 0 removes the first, iteration 1 removes the
      third (now at index 1), and `item(2)` of the remaining one-element list is null.
      The failure leaves `<r><x/></r>`. */
  lemma DeleteThreeSiblingsFails()
    ensures
      var x := Element("x", map[], []);
      DeleteTag(Document(Some(Element("r", map[], [x, x, x]))), "x") ==
        Err(MissingListItem(2), Document(Some(Element("r", map[], [x]))))
  {
    var x := Element("x", map[], []);
    var d3 := Document(Some(Element("r", map[], [x, x, x])));
    var d2 := Document(Some(Element("r", map[], [x, x])));
    var d1 := Document(Some(Element("r", map[], [x])));
    assert |DocumentMatches(d3, "x")| == 3 by {
      RowOfX(3);
      assert seq(3, _ => x) == [x, x, x];
    }
    assert DeleteLoop(d1, "x", 2, 3) == Err(MissingListItem(2), d1) by {
      RowOfX(1);
      assert seq(1, _ => x) == [x];
    }
    assert DeleteLoop(d2, "x", 1, 3) == DeleteLoop(d1, "x", 2, 3) by {
      RowOfX(2);
      assert seq(2, _ => x) == [x, x];
      assert DocumentMatches(d2, "x")[1] == [1];
      assert [1][..0] == [];
      assert [x, x][..1] + [x, x][2..] == [x];
      assert RemoveNode(d2, [1]) == d1;
    }
    assert DeleteLoop(d3, "x", 0, 3) == DeleteLoop(d2, "x", 1, 3) by {
      RowOfX(3);
      assert seq(3, _ => x) == [x, x, x];
      assert DocumentMatches(d3, "x")[0] == [0];
      assert [0][..0] == [];
      assert [x, x, x][..0] + [x, x, x][1..] == [x, x];
      assert RemoveNode(d3, [0]) == d2;
    }
  }

  // ---------------------------------------------------------------------------
  // replaceTagValue, corrected

  /** `replaceTagValue` with the bound read again on every iteration: every selected
      element that is still in the tree when reached gets `tagValue` as its first
      child; the subtree of a replaced first child is dropped unvisited. */
  function ReplaceAll(n: Node, tagName: string, tagValue: Option<string>): (r: Node)
    ensures r.Element? == n.Element? && (n.Element? ==> r.name == n.name && r.attrs == n.attrs)
    ensures IsMatch(n, tagName) ==>
      && |r.children| == (if |n.children| == 0 then 1 else |n.children|)
      && r.children[0] == Text(tagValue)
    ensures n.Element? && !IsMatch(n, tagName) ==> |r.children| == |n.children|
    decreases n
  {
    if n.Text? then n
    else
      var cs := seq(|n.children|, k requires 0 <= k < |n.children| => ReplaceAll(n.children[k], tagName, tagValue));
      if !IsMatch(n, tagName) then n.(children := cs)
      else if |cs| == 0 then n.(children := [Text(tagValue)])
      else n.(children := [Text(tagValue)] + cs[1..])
  }

  function ReplaceAllInDocument(d: Document, tagName: string, tagValue: Option<string>): Document {
    if d.root.None? then d else Document(Some(ReplaceAll(d.root.value, tagName, tagValue)))
  }

  /** The evidently intended result: afterwards every selected element has the new
      text node as its first child. */
  lemma {:induction false} ReplaceAllValuesEveryMatch(n: Node, tagName: string, tagValue: Option<string>, p: Path)
    requires MatchAt(ReplaceAll(n, tagName, tagValue), p, tagName)
    ensures |At(ReplaceAll(n, tagName, tagValue), p).value.children| > 0
    ensures At(ReplaceAll(n, tagName, tagValue), p).value.children[0] == Text(tagValue)
    decreases p
  {
    var r := ReplaceAll(n, tagName, tagValue);
    if p != [] {
      var k := p[0];
      // Below a replaced first child there is only the new text node, so a match
      // inside the result is never reached through child 0 of a selected element.
      if !(IsMatch(n, tagName) && k == 0) {
        assert r.children[k] == ReplaceAll(n.children[k], tagName, tagValue);
        ReplaceAllValuesEveryMatch(n.children[k], tagName, tagValue, p[1..]);
      }
    }
  }

  /** `<x><x/></x>`: the first iteration replaces the inner `x`, the live list shrinks
      to one element, and `item(1)` is null, so `replaceTagValue` as written fails;
      `ReplaceAll` gives `<x>v</x>`. */
  lemma ReplaceNestedFails()
    ensures
      var d := Document(Some(Element("x", map[], [Element("x", map[], [])])));
      && ReplaceTagValue(d, "x", Some("v")) == Err(MissingListItem(1), Document(Some(Element("x", map[], [Text(Some("v"))]))))
      && ReplaceAllInDocument(d, "x", Some("v")) == Document(Some(Element("x", map[], [Text(Some("v"))])))
  {
    var inner := Element("x", map[], []);
    var outer := Element("x", map[], [inner]);
    var d := Document(Some(outer));
    LeafMatches(inner, "x");
    assert Prepend(0, [[]]) == [[0]] by { assert [0] + [] == [0]; }
    assert Blocks(outer, "x") == [Prepend(0, Matches(inner, "x"))];
    assert Flatten([[[0]]]) == [[0]] + Flatten([]);
    assert Blocks(outer, "x") == [[[0]]];
    assert Descendants(outer, "x") == [[0]];
    assert Matches(outer, "x") == [[]] + Descendants(outer, "x");
    assert DocumentMatches(d, "x") == [[], [0]];
    var v := Text(Some("v"));
    var outer' := Element("x", map[], [v]);
    var d' := Document(Some(outer'));
    assert [inner][0 := v] == [v];
    assert ReplaceStep(d, [], Some("v")) == d';
    LeafMatches(outer', "x");
    assert DocumentMatches(d', "x") == [[]];
    assert ReplaceLoop(d', "x", Some("v"), 1, 2) == Err(MissingListItem(1), d');
    assert ReplaceLoop(d, "x", Some("v"), 0, 2) == ReplaceLoop(d', "x", Some("v"), 1, 2);
    assert ReplaceAll(inner, "x", Some("v")) == outer';
    assert ReplaceAll(outer, "x", Some("v")) == outer';
  }

  // ---------------------------------------------------------------------------
  // What the corrected replacement keeps, and when the loop as written agrees

  /** `p` lies in the first child of a selected element: the subtree that the
      replacement drops. */
  ghost predicate UnderReplacedChild(n: Node, tagName: string, p: Path) {
    exists q :: q + [0] <= p && MatchAt(n, q, tagName)
  }

  /** Seen from a child that is not the first child of a selected element, lying under
      a replaced first child means the same thing. */
  lemma UnderChild(n: Node, tagName: string, k: nat, rest: Path)
    requires n.Element? && k < |n.children|
    requires !(IsMatch(n, tagName) && k == 0)
    ensures UnderReplacedChild(n, tagName, [k] + rest) <==> UnderReplacedChild(n.children[k], tagName, rest)
  {
    var p := [k] + rest;
    var c := n.children[k];
    if UnderReplacedChild(n, tagName, p) {
      var q :| q + [0] <= p && MatchAt(n, q, tagName);
      assert (q + [0])[0] == p[0] == k;
      assert q != [];
      var q' := q[1..];
      assert q == [k] + q';
      MatchAtChild(n, k, q', tagName);
      assert q' + [0] == (q + [0])[1..];
      assert q' + [0] <= rest;
      assert MatchAt(c, q', tagName);
    }
    if UnderReplacedChild(c, tagName, rest) {
      var q' :| q' + [0] <= rest && MatchAt(c, q', tagName);
      var q := [k] + q';
      MatchAtChild(n, k, q', tagName);
      assert q + [0] == [k] + (q' + [0]);
      assert q + [0] <= p;
    }
  }

  /** Exactly the matches that do not lie in the first child of another match are still
      selected afterwards, at the same path; every element outside the dropped
      subtrees keeps its tag name and attributes. */
  lemma {:induction false} ReplaceAllSelection(n: Node, tagName: string, tagValue: Option<string>, p: Path)
    ensures MatchAt(ReplaceAll(n, tagName, tagValue), p, tagName) <==>
      MatchAt(n, p, tagName) && !UnderReplacedChild(n, tagName, p)
    ensures ElementAt(n, p) && !UnderReplacedChild(n, tagName, p) ==>
      && ElementAt(ReplaceAll(n, tagName, tagValue), p)
      && At(ReplaceAll(n, tagName, tagValue), p).value.name == At(n, p).value.name
      && At(ReplaceAll(n, tagName, tagValue), p).value.attrs == At(n, p).value.attrs
    decreases p
  {
    var r := ReplaceAll(n, tagName, tagValue);
    if p == [] {
      assert !UnderReplacedChild(n, tagName, p);
    } else if n.Element? {
      var k := p[0];
      var rest := p[1..];
      if IsMatch(n, tagName) && k == 0 {
        assert ([] + [0]) <= p && MatchAt(n, [], tagName);
        assert UnderReplacedChild(n, tagName, p);
        assert At(r, p) == At(Text(tagValue), rest);
      } else if k < |n.children| {
        var c := n.children[k];
        assert r.children[k] == ReplaceAll(c, tagName, tagValue);
        assert [k] + rest == p;
        MatchAtChild(n, k, rest, tagName);
        MatchAtChild(r, k, rest, tagName);
        ReplaceAllSelection(c, tagName, tagValue, rest);
        UnderChild(n, tagName, k, rest);
      }
    }
  }

  /** Some selected element lies in the first child of the element at `p`. */
  ghost predicate HoldsMatchInFirstChild(n: Node, tagName: string, p: Path) {
    exists m :: p + [0] <= m && MatchAt(n, m, tagName)
  }

  /** No selected element lies in the first child of another selected element. */
  ghost predicate NoNested(n: Node, tagName: string) {
    forall q, m :: MatchAt(n, q, tagName) && MatchAt(n, m, tagName) ==> !(q + [0] <= m)
  }

  lemma HoldsIff(n: Node, p: Path, tagName: string)
    requires ElementAt(n, p)
    ensures HoldsMatchInFirstChild(n, tagName, p) <==>
      |At(n, p).value.children| > 0 && Matches(At(n, p).value.children[0], tagName) != []
  {
    var e := At(n, p).value;
    if HoldsMatchInFirstChild(n, tagName, p) {
      var m :| p + [0] <= m && MatchAt(n, m, tagName);
      var s := m[|p| + 1..];
      assert m == (p + [0]) + s;
      AtConcat(n, p + [0], s);
      AtConcat(n, p, [0]);
      MatchesExactly(e.children[0], tagName, s);
    }
    if |e.children| > 0 && Matches(e.children[0], tagName) != [] {
      var s := Matches(e.children[0], tagName)[0];
      MatchesExactly(e.children[0], tagName, s);
      ChildAt(n, p, 0);
      AtConcat(n, p + [0], s);
      assert p + [0] <= (p + [0]) + s;
      assert MatchAt(n, (p + [0]) + s, tagName);
    }
  }

  /** A replace step drops from the live list exactly the matches in the first child it
      replaces: the list is unchanged when there are none and shorter otherwise. */
  lemma ReplaceStepMatches(d: Document, p: Path, tagName: string, tagValue: Option<string>)
    requires DocElementAt(d, p)
    ensures |DocumentMatches(ReplaceStep(d, p, tagValue), tagName)| <= |DocumentMatches(d, tagName)|
    ensures HoldsMatchInFirstChild(d.root.value, tagName, p) ==>
      |DocumentMatches(ReplaceStep(d, p, tagValue), tagName)| < |DocumentMatches(d, tagName)|
    ensures !HoldsMatchInFirstChild(d.root.value, tagName, p) ==>
      DocumentMatches(ReplaceStep(d, p, tagValue), tagName) == DocumentMatches(d, tagName)
    ensures
      var m := At(d.root.value, p).value;
      |DocumentMatches(ReplaceStep(d, p, tagValue), tagName)| ==
        |DocumentMatches(d, tagName)| - (if |m.children| > 0 then |Matches(m.children[0], tagName)| else 0)
  {
    var root := d.root.value;
    var e := SetFirstChild(Text(tagValue));
    var m := At(root, p).value;
    assert ReplaceStep(d, p, tagValue).root.value == EditAt(root, p, e);
    assert Matches(Text(tagValue), tagName) == [] + Flatten([]);
    CountEditAt(root, p, e, tagName);
    CountApply(m, e, tagName);
    HoldsIff(root, p, tagName);
    if !HoldsMatchInFirstChild(root, tagName, p) {
      SetFirstChildKeepsMatches(root, p, Text(tagValue), tagName);
    }
  }

  /** Replacing the first child of the element at `p` changes nothing outside `p`, its
      ancestors and that first child's subtree. */
  lemma FirstChildStepFrame(n: Node, p: Path, x: Node, q: Path)
    requires ElementAt(n, p)
    requires !(q <= p) && !(p + [0] <= q)
    ensures At(EditAt(n, p, SetFirstChild(x)), q) == At(n, q)
  {
    var e := SetFirstChild(x);
    EditAtFrame(n, p, e, q);
    if p <= q {
      var s := q[|p|..];
      assert q == p + s;
      AtConcat(n, p, s);
      assert s != [];
      assert q[..|p| + 1] == p + [s[0]];
      assert s[0] != 0;
      var m := At(n, p).value;
      var m' := Apply(m, e);
      if s[0] < |m.children| {
        assert m'.children[s[0]] == m.children[s[0]];
      }
    }
  }

  lemma ExtendedPrefix(a: Path, b: Path)
    ensures a + [0] <= b + [0] ==> a == b || a + [0] <= b
  {
    if a + [0] <= b + [0] {
      var n := |a|;
      assert a == (a + [0])[..n] == (b + [0])[..n] == b[..n];
      if n < |b| {
        assert (a + [0])[n] == (b + [0])[n] == b[n];
        assert a + [0] == b[..n + 1];
      }
    }
  }

  /** A replace step that `ReplaceAll` performs anyway is absorbed by it. */
  lemma {:induction false} ReplaceAllAbsorbsStep(n: Node, p: Path, tagName: string, tagValue: Option<string>)
    requires MatchAt(n, p, tagName)
    ensures ReplaceAll(EditAt(n, p, SetFirstChild(Text(tagValue))), tagName, tagValue) == ReplaceAll(n, tagName, tagValue)
    decreases p
  {
    var e := SetFirstChild(Text(tagValue));
    var n' := EditAt(n, p, e);
    var cs := seq(|n.children|, k requires 0 <= k < |n.children| => ReplaceAll(n.children[k], tagName, tagValue));
    var cs' := seq(|n'.children|, k requires 0 <= k < |n'.children| => ReplaceAll(n'.children[k], tagName, tagValue));
    if p == [] {
      if |n.children| > 0 {
        assert cs'[1..] == cs[1..];
      } else {
        assert ReplaceAll(Text(tagValue), tagName, tagValue) == Text(tagValue);
        assert cs' == [Text(tagValue)];
      }
    } else {
      var k := p[0];
      ReplaceAllAbsorbsStep(n.children[k], p[1..], tagName, tagValue);
      assert cs' == cs;
    }
  }

  /** A tree in which every match already starts with the new text node is left as it is. */
  lemma {:induction false} ReplaceAllFixed(x: Node, tagName: string, tagValue: Option<string>)
    requires forall p :: MatchAt(x, p, tagName) ==> At(x, p + [0]) == Some(Text(tagValue))
    ensures ReplaceAll(x, tagName, tagValue) == x
    decreases x
  {
    if x.Element? {
      var cs := seq(|x.children|, k requires 0 <= k < |x.children| => ReplaceAll(x.children[k], tagName, tagValue));
      forall k | 0 <= k < |x.children|
        ensures cs[k] == x.children[k]
      {
        var c := x.children[k];
        forall p | MatchAt(c, p, tagName)
          ensures At(c, p + [0]) == Some(Text(tagValue))
        {
          MatchAtChild(x, k, p, tagName);
          MatchAtChild(x, k, p + [0], tagName);
          assert [k] + (p + [0]) == ([k] + p) + [0];
        }
        ReplaceAllFixed(c, tagName, tagValue);
      }
      assert cs == x.children;
      if IsMatch(x, tagName) {
        assert MatchAt(x, [], tagName);
        assert [] + [0] == [0];
        assert At(x, [0]) == Some(Text(tagValue));
        assert [Text(tagValue)] + cs[1..] == x.children;
      }
    }
  }

  /** Once the live list is shorter than the loop bound, the loop fails. */
  lemma {:induction false} ReplaceLoopShortFails(d: Document, tagName: string, tagValue: Option<string>, i: nat, j: nat)
    requires i < j && |DocumentMatches(d, tagName)| < j
    ensures ReplaceLoop(d, tagName, tagValue, i, j).Err?
    decreases j - i
  {
    var nodes := DocumentMatches(d, tagName);
    if i < |nodes| {
      MatchesExactly(d.root.value, tagName, nodes[i]);
      ReplaceStepMatches(d, nodes[i], tagName, tagValue);
      ReplaceLoopShortFails(ReplaceStep(d, nodes[i], tagValue), tagName, tagValue, i + 1, j);
    }
  }

  /** A match that holds another match in its first child is followed by that match
      in the search result. */
  lemma HolderNotLast(n: Node, tagName: string, i: nat)
    requires i < |Matches(n, tagName)|
    requires HoldsMatchInFirstChild(n, tagName, Matches(n, tagName)[i])
    ensures i + 1 < |Matches(n, tagName)|
  {
    var nodes := Matches(n, tagName);
    var p := nodes[i];
    var w :| p + [0] <= w && MatchAt(n, w, tagName);
    MatchesExactly(n, tagName, w);
    var i' :| 0 <= i' < |nodes| && nodes[i'] == w;
    MatchesSorted(n, tagName);
    assert p < w;
    AncestorBefore(p, w);
    BeforeAsymmetric(p, w);
    assert i < i';
  }

  /** If a match still to be visited holds another match in its first child, the loop fails. */
  lemma {:induction false} ReplaceLoopNestedFails(d: Document, tagName: string, tagValue: Option<string>, i: nat, j: nat, k: nat)
    requires d.root.Some? && |DocumentMatches(d, tagName)| == j && i <= k < j
    requires HoldsMatchInFirstChild(d.root.value, tagName, DocumentMatches(d, tagName)[k])
    ensures ReplaceLoop(d, tagName, tagValue, i, j).Err?
    decreases j - i
  {
    var root := d.root.value;
    var nodes := DocumentMatches(d, tagName);
    var p := nodes[i];
    MatchesExactly(root, tagName, p);
    var d' := ReplaceStep(d, p, tagValue);
    ReplaceStepMatches(d, p, tagName, tagValue);
    if HoldsMatchInFirstChild(root, tagName, p) {
      HolderNotLast(root, tagName, i);
      ReplaceLoopShortFails(d', tagName, tagValue, i + 1, j);
    } else {
      SameSelection(root, d'.root.value, tagName);
      assert HoldsMatchInFirstChild(d'.root.value, tagName, nodes[k]);
      ReplaceLoopNestedFails(d', tagName, tagValue, i + 1, j, k);
    }
  }

  /** Trees with the same search result select the same paths. */
  lemma SameSelection(a: Node, b: Node, tagName: string)
    requires Matches(a, tagName) == Matches(b, tagName)
    ensures forall x :: MatchAt(a, x, tagName) == MatchAt(b, x, tagName)
  {
    forall x
      ensures MatchAt(a, x, tagName) == MatchAt(b, x, tagName)
    {
      MatchesExactly(a, tagName, x);
      MatchesExactly(b, tagName, x);
    }
  }

  /** Without nested matches, the step at the `i`-th match keeps the new text node in
      front of every match visited before and puts it in front of the `i`-th. */
  lemma ReplaceStepKeepsVisited(d: Document, tagName: string, tagValue: Option<string>, i: nat)
    requires d.root.Some? && i < |DocumentMatches(d, tagName)|
    requires DocElementAt(d, DocumentMatches(d, tagName)[i])
    requires NoNested(d.root.value, tagName)
    requires forall k :: 0 <= k < i ==> At(d.root.value, DocumentMatches(d, tagName)[k] + [0]) == Some(Text(tagValue))
    ensures forall k :: 0 <= k <= i ==>
      At(ReplaceStep(d, DocumentMatches(d, tagName)[i], tagValue).root.value, DocumentMatches(d, tagName)[k] + [0]) ==
        Some(Text(tagValue))
  {
    var root := d.root.value;
    var nodes := DocumentMatches(d, tagName);
    var p := nodes[i];
    var root' := ReplaceStep(d, p, tagValue).root.value;
    MatchesExactly(root, tagName, p);
    MatchesSorted(root, tagName);
    forall k | 0 <= k <= i
      ensures At(root', nodes[k] + [0]) == Some(Text(tagValue))
    {
      if k == i {
        ReplaceStepEffect(d, p, tagValue, p);
        ChildAt(root', p, 0);
      } else {
        var q := nodes[k];
        MatchesExactly(root, tagName, q);
        BeforeIrreflexive(p);
        assert q != p;
        ExtendedPrefix(p, q);
        FirstChildStepFrame(root, p, Text(tagValue), q + [0]);
      }
    }
  }

  /** Without nested matches the loop visits every match once, on a list that never
      changes, and each visit is one that `ReplaceAll` makes too. */
  lemma {:induction false} ReplaceLoopClean(d: Document, tagName: string, tagValue: Option<string>, i: nat, j: nat)
    requires d.root.Some? && |DocumentMatches(d, tagName)| == j && i <= j
    requires NoNested(d.root.value, tagName)
    requires forall k :: 0 <= k < i ==> At(d.root.value, DocumentMatches(d, tagName)[k] + [0]) == Some(Text(tagValue))
    ensures ReplaceLoop(d, tagName, tagValue, i, j).Ok?
    ensures ReplaceLoop(d, tagName, tagValue, i, j).value.root.Some?
    ensures ReplaceAll(ReplaceLoop(d, tagName, tagValue, i, j).value.root.value, tagName, tagValue) ==
      ReplaceAll(d.root.value, tagName, tagValue)
    ensures forall p :: MatchAt(ReplaceLoop(d, tagName, tagValue, i, j).value.root.value, p, tagName) ==>
      At(ReplaceLoop(d, tagName, tagValue, i, j).value.root.value, p + [0]) == Some(Text(tagValue))
    decreases j - i
  {
    var root := d.root.value;
    var nodes := DocumentMatches(d, tagName);
    if i == j {
      forall p | MatchAt(root, p, tagName)
        ensures At(root, p + [0]) == Some(Text(tagValue))
      {
        MatchesExactly(root, tagName, p);
        var k :| 0 <= k < |nodes| && nodes[k] == p;
      }
    } else {
      var p := nodes[i];
      MatchesExactly(root, tagName, p);
      var d' := ReplaceStep(d, p, tagValue);
      assert !HoldsMatchInFirstChild(root, tagName, p);
      ReplaceStepMatches(d, p, tagName, tagValue);
      SameSelection(root, d'.root.value, tagName);
      ReplaceStepKeepsVisited(d, tagName, tagValue, i);
      ReplaceAllAbsorbsStep(root, p, tagName, tagValue);
      ReplaceLoopClean(d', tagName, tagValue, i + 1, j);
    }
  }

  /** `replaceTagValue` as written succeeds exactly when no selected element lies in the
      first child of another, and then it computes the corrected replacement. */
  lemma ReplaceTagValueAgreesWithReplaceAll(d: Document, tagName: string, tagValue: Option<string>)
    ensures ReplaceTagValue(d, tagName, tagValue).Ok? <==> d.root.None? || NoNested(d.root.value, tagName)
    ensures ReplaceTagValue(d, tagName, tagValue).Ok? ==>
      ReplaceTagValue(d, tagName, tagValue).value == ReplaceAllInDocument(d, tagName, tagValue)
  {
    var j := |DocumentMatches(d, tagName)|;
    assert ReplaceTagValue(d, tagName, tagValue) == ReplaceLoop(d, tagName, tagValue, 0, j);
    if d.root.Some? {
      var root := d.root.value;
      if NoNested(root, tagName) {
        ReplaceLoopClean(d, tagName, tagValue, 0, j);
        var x := ReplaceLoop(d, tagName, tagValue, 0, j).value;
        ReplaceAllFixed(x.root.value, tagName, tagValue);
      } else {
        var q, m :| MatchAt(root, q, tagName) && MatchAt(root, m, tagName) && q + [0] <= m;
        MatchesExactly(root, tagName, q);
        var nodes := DocumentMatches(d, tagName);
        var k :| 0 <= k < |nodes| && nodes[k] == q;
        assert HoldsMatchInFirstChild(root, tagName, nodes[k]);
        ReplaceLoopNestedFails(d, tagName, tagValue, 0, j, k);
      }
    }
  }
}

=== FILE: dom.dfy ===
/**
 The in-memory XML tree that `XMLUtil` edits, as an immutable value.

 A DOM `Document` is modelled by its document element (absent in a freshly
 created document). An element carries a tag name, a map of attributes and an
 ordered sequence of children; a text node carries character data, which is
 null when the text node was created from a Java `null`. A node inside the
 tree is identified by its position: the path of child indices that leads to it
 from the document element.
 */
module Dom {

  /** Java's nullable reference: `None` stands for `null`. */
  datatype Option<+T> = None | Some(value: T)

  datatype Node =
    | Element(name: string, attrs: map<string, string>, children: seq<Node>)
    | Text(data: Option<string>)

  /** Child indices leading from a node to one of its descendants; `[]` is the node itself. */
  type Path = seq<nat>

  /** A DOM document and its document element. A text node never stands as `root`
      in a DOM document and no operation here builds one; such a value behaves like
      a document without a document element (`HasDocumentElement` is false and no
      search selects anything). */
  datatype Document = Document(root: Option<Node>)

  /** The failures `XMLUtil` runs into; each is a `NullPointerException` in Java. */
  datatype Error =
    | NoDocumentElement          // `getDocumentElement()` returned null
    | MissingListItem(index: nat) // `NodeList.item(index)` past the end of a live list returned null

  /** A mutation either completes or fails part-way; the source does no rollback, so a
      failure carries the document as it was when the exception was thrown. */
  datatype Result<+T> = Ok(value: T) | Err(error: Error, state: Document)

  /** The tag name that `getElementsByTagName` treats as matching every element. */
  const Wildcard: string := "*"

  /** The DOM `getNodeValue()`: the data of a text node, null for an element. */
  function NodeValue(n: Node): Option<string> {
    match n
    case Element(_, _, _) => None
    case Text(data) => data
  }

  /** Whether `getElementsByTagName(tagName)` selects `n`. */
  predicate IsMatch(n: Node, tagName: string) {
    n.Element? && (tagName == Wildcard || n.name == tagName)
  }

  /** The node reached from `n` by following `p`, if the path exists. */
  function At(n: Node, p: Path): Option<Node>
    decreases p
  {
    if p == [] then Some(n)
    else if n.Element? && p[0] < |n.children| then At(n.children[p[0]], p[1..])
    else None
  }

  predicate ElementAt(n: Node, p: Path) {
    At(n, p).Some? && At(n, p).value.Element?
  }

  /** The node at `p` exists and `getElementsByTagName(tagName)` selects it. */
  predicate MatchAt(n: Node, p: Path, tagName: string) {
    At(n, p).Some? && IsMatch(At(n, p).value, tagName)
  }

  /** `getDocumentElement()`: the root, when it is an element. */
  predicate HasDocumentElement(d: Document) {
    d.root.Some? && d.root.value.Element?
  }

  /** A path exists in the document and leads to an element. */
  predicate DocElementAt(d: Document, p: Path) {
    d.root.Some? && ElementAt(d.root.value, p)
  }

  /** The one-step DOM mutations the utility performs on an element. */
  datatype Edit =
    | AppendChild(child: Node)    // `appendChild`
    | SetFirstChild(child: Node)  // `replaceChild(child, getFirstChild())`, or `appendChild` when there is none
    | RemoveChild(index: nat)     // `removeChild` of the child at `index`
    | SetAttribute(key: string, value: string) // `setAttribute` / `setAttributeNode`

  predicate Applicable(n: Node, e: Edit) {
    n.Element? && (e.RemoveChild? ==> e.index < |n.children|)
  }

  /** Performs `e` on the element `n`; an element's tag name never changes. */
  function Apply(n: Node, e: Edit): (r: Node)
    requires Applicable(n, e)
    ensures r.Element? && r.name == n.name
    ensures !e.SetAttribute? ==> r.attrs == n.attrs
    ensures e.SetAttribute? ==> r.attrs.Keys == n.attrs.Keys + {e.key} && r.attrs[e.key] == e.value
    ensures e.SetAttribute? ==> forall k :: k in n.attrs && k != e.key ==> r.attrs[k] == n.attrs[k]
  {
    match e
    case AppendChild(c) => n.(children := n.children + [c])
    case SetFirstChild(c) =>
      if |n.children| > 0 then n.(children := n.children[0 := c]) else n.(children := [c])
    case RemoveChild(k) => n.(children := n.children[..k] + n.children[k + 1..])
    case SetAttribute(key, value) => n.(attrs := n.attrs[key := value])
  }

  /** Whether `e` can be performed on the node at `p`. */
  predicate CanEditAt(n: Node, p: Path, e: Edit) {
    At(n, p).Some? && Applicable(At(n, p).value, e)
  }

  /** The tree after performing `e` on the element at `p`. */
  function EditAt(n: Node, p: Path, e: Edit): Node
    requires CanEditAt(n, p, e)
    decreases p
  {
    if p == [] then Apply(n, e)
    else n.(children := n.children[p[0] := EditAt(n.children[p[0]], p[1..], e)])
  }

  /** Following `p` and then `s` is following `p + s`. */
  lemma {:induction false} AtConcat(n: Node, p: Path, s: Path)
    ensures At(n, p + s) == if At(n, p).Some? then At(At(n, p).value, s) else None
    decreases p
  {
    if p == [] {
      assert p + s == s;
    } else {
      assert (p + s)[0] == p[0];
      assert (p + s)[1..] == p[1..] + s;
      if n.Element? && p[0] < |n.children| {
        AtConcat(n.children[p[0]], p[1..], s);
      }
    }
  }

  /** An edit at `p` leaves every node that is neither above nor below `p` as it was,
      keeps the tag name, attributes and child count of every proper ancestor, and
      below `p` the tree is the edited element's. */
  lemma {:induction false} EditAtFrame(n: Node, p: Path, e: Edit, q: Path)
    requires CanEditAt(n, p, e)
    ensures !(q <= p) && !(p <= q) ==> At(EditAt(n, p, e), q) == At(n, q)
    ensures q < p ==>
      && ElementAt(n, q) && ElementAt(EditAt(n, p, e), q)
      && At(EditAt(n, p, e), q).value.name == At(n, q).value.name
      && At(EditAt(n, p, e), q).value.attrs == At(n, q).value.attrs
      && |At(EditAt(n, p, e), q).value.children| == |At(n, q).value.children|
    ensures p <= q ==> At(EditAt(n, p, e), q) == At(Apply(At(n, p).value, e), q[|p|..])
    decreases p
  {
    if p == [] {
      assert q[|p|..] == q;
    } else if q == [] {
    } else {
      var c := n.children[p[0]];
      var r := EditAt(n, p, e);
      assert r.children[p[0]] == EditAt(c, p[1..], e);
      if q[0] == p[0] {
        EditAtFrame(c, p[1..], e, q[1..]);
        assert q <= p <==> q[1..] <= p[1..];
        assert p <= q <==> p[1..] <= q[1..];
        assert q < p <==> q[1..] < p[1..];
        if p <= q {
          assert q[|p|..] == q[1..][|p[1..]|..];
        }
      } else {
        assert !(q <= p) && !(p <= q);
      }
    }
  }

  /** A node that is not the root has a parent element that `removeChild` can act on. */
  lemma ParentAt(n: Node, p: Path)
    requires |p| > 0 && At(n, p).Some?
    ensures CanEditAt(n, p[..|p| - 1], RemoveChild(p[|p| - 1]))
    ensures At(n, p[..|p| - 1]).value.children[p[|p| - 1]] == At(n, p).value
  {
    assert p == p[..|p| - 1] + [p[|p| - 1]];
    AtConcat(n, p[..|p| - 1], [p[|p| - 1]]);
  }

  /** The document as it stands after a mutation, whether it completed or not. */
  function Final(r: Result<Document>): Document {
    if r.Ok? then r.value else r.state
  }

  /** Following `[k] + s` is following `s` from the `k`-th child. */
  lemma MatchAtChild(n: Node, k: nat, s: Path, tagName: string)
    requires n.Element? && k < |n.children|
    ensures At(n, [k] + s) == At(n.children[k], s)
    ensures MatchAt(n, [k] + s, tagName) == MatchAt(n.children[k], s, tagName)
  {
    assert ([k] + s)[0] == k && ([k] + s)[1..] == s;
  }

  /** The node at `p + [k]` is the `k`-th child of the element at `p`. */
  lemma ChildAt(n: Node, p: Path, k: nat)
    requires ElementAt(n, p) && k < |At(n, p).value.children|
    ensures At(n, p + [k]) == Some(At(n, p).value.children[k])
  {
    AtConcat(n, p, [k]);
  }
}

=== FILE: maptoxml.dfy ===
/**
 The document `mapToXml` builds before serialising it: a root element with one
 child element per map entry, each child carrying the entry's key and value as
 attributes. The map is given as its entries in iteration order, with key and
 value already converted by `toString()`.
 */
module MapToXml {
  import opened Dom
  import opened Search

  /** `createElement(childName)` followed by `setAttribute(keyName, key)` and
      `setAttribute(valueName, value)`. */
  function EntryElement(entry: (string, string), childName: string, keyName: string, valueName: string): Node {
    Element(childName, map[][keyName := entry.0][valueName := entry.1], [])
  }

  /** The tree of `mapToXml`: one `childName` child of `rootName` per entry, in entry
      order, with the key under `keyName` and the value under `valueName`. When the
      two attribute names are equal the value overwrites the key. */
  function MapToXmlTree(entries: seq<(string, string)>, rootName: string, childName: string,
                        keyName: string, valueName: string): (d: Document)
    ensures HasDocumentElement(d)
    ensures d.root.value.name == rootName && d.root.value.attrs == map[]
    ensures |d.root.value.children| == |entries|
    ensures forall i :: 0 <= i < |entries| ==>
      && d.root.value.children[i].Element?
      && d.root.value.children[i].name == childName
      && d.root.value.children[i].children == []
      && d.root.value.children[i].attrs.Keys == {keyName, valueName}
      && d.root.value.children[i].attrs[valueName] == entries[i].1
      && (keyName != valueName ==> d.root.value.children[i].attrs[keyName] == entries[i].0)
  {
    var children := seq(|entries|, i requires 0 <= i < |entries| => EntryElement(entries[i], childName, keyName, valueName));
    Document(Some(Element(rootName, map[], children)))
  }

  /** Searching the built document for `childName` finds the entries' elements in
      entry order, when that name selects neither the root nor everything. */
  lemma EntriesInDocumentOrder(entries: seq<(string, string)>, rootName: string, childName: string,
                               keyName: string, valueName: string)
    requires childName != rootName && childName != Wildcard
    ensures DocumentMatches(MapToXmlTree(entries, rootName, childName, keyName, valueName), childName) ==
      seq(|entries|, i requires 0 <= i < |entries| => [i])
  {
    var root := MapToXmlTree(entries, rootName, childName, keyName, valueName).root.value;
    RowOfLeaves(root, childName);
  }

  /** The two-entry example: `{k1=v1, k2=v2}` under `root`/`entry` with attributes
      `key` and `value` becomes `<root><entry key="k1" value="v1"/><entry key="k2" value="v2"/></root>`. */
  lemma TwoEntries()
    ensures MapToXmlTree([("k1", "v1"), ("k2", "v2")], "root", "entry", "key", "value") ==
      Document(Some(Element("root", map[], [
        Element("entry", map["key" := "k1", "value" := "v1"], []),
        Element("entry", map["key" := "k2", "value" := "v2"], [])])))
  {
    var entries := [("k1", "v1"), ("k2", "v2")];
    var children := seq(|entries|, i requires 0 <= i < |entries| => EntryElement(entries[i], "entry", "key", "value"));
    assert children == [EntryElement(entries[0], "entry", "key", "value"), EntryElement(entries[1], "entry", "key", "value")];
  }
}

=== FILE: mutators.dfy ===
/**
 The mutating operations of `XMLUtil`. Each Java method changes the `Document`
 it is given in place; here each returns the changed document instead.

 `replaceTagValue` and `deleteTag` read the length `j` of the match list once and
 then call `item(i)` for `i` from 0 to `j - 1` on a list that is live. Here that
 list is computed again before every iteration. When `item(i)` is past the end of
 the shrunken list it returns null, and the next call on it throws, so the loop
 ends with `Err(MissingListItem(i), state)`.
 */
module Mutators {
  import opened Dom
  import opened Search
  import opened Queries

  /** `createElement(tagName)` holding `createTextNode(tagValue)`, as built by
      `insertTagInElement` and `insertNewTagBelow`. */
  function NewTag(tagName: string, tagValue: Option<string>): Node {
    Element(tagName, map[], [Text(tagValue)])
  }

  /** A changed document, together with the position of the element the call returns. */
  datatype Inserted = Inserted(doc: Document, at: Path)

  // ---------------------------------------------------------------------------
  // replaceTagValue

  /** One iteration of `replaceTagValue`: the element at `p` gets a new text node as
      its first child, replacing the old first child or appended if there was none. */
  function ReplaceStep(d: Document, p: Path, tagValue: Option<string>): (r: Document)
    requires DocElementAt(d, p)
    ensures DocElementAt(r, p)
  {
    EditAtFrame(d.root.value, p, SetFirstChild(Text(tagValue)), p);
    Document(Some(EditAt(d.root.value, p, SetFirstChild(Text(tagValue)))))
  }

  /** Iterations `i` to `j - 1` of the loop in `replaceTagValue`, with a live match list. */
  function ReplaceLoop(d: Document, tagName: string, tagValue: Option<string>, i: nat, j: nat): Result<Document>
    decreases j - i
  {
    if i >= j then Ok(d)
    else
      var nodes := DocumentMatches(d, tagName);
      if i >= |nodes| then Err(MissingListItem(i), d)
      else
        MatchesExactly(d.root.value, tagName, nodes[i]);
        ReplaceLoop(ReplaceStep(d, nodes[i], tagValue), tagName, tagValue, i + 1, j)
  }

  /** `replaceTagValue`. Without a match the document is unchanged. With one, the
      first match in preorder is never removed, so the tag still exists afterwards,
      even when the loop fails part-way. */
  function ReplaceTagValue(d: Document, tagName: string, tagValue: Option<string>): (r: Result<Document>)
    ensures !CheckTagExists(d, tagName) ==> r == Ok(d)
    ensures CheckTagExists(d, tagName) ==> CheckTagExists(Final(r), tagName)
    ensures r.Err? ==> r.error.MissingListItem?
  {
    var j := |DocumentMatches(d, tagName)|;
    if j > 0 then
      var first := DocumentMatches(d, tagName)[0];
      MatchesExactly(d.root.value, tagName, first);
      assert (forall q :: q < first ==> !MatchAt(d.root.value, q, tagName)) by {
        forall q | q < first
          ensures !MatchAt(d.root.value, q, tagName)
        {
          FirstMatchTopmost(d.root.value, tagName, q);
        }
      }
      ReplaceLoopKeepsTopmost(d, tagName, tagValue, 0, j, first);
      ReplaceLoopErrors(d, tagName, tagValue, 0, j);
      ReplaceLoop(d, tagName, tagValue, 0, j)
    else
      ReplaceLoop(d, tagName, tagValue, 0, j)
  }

  lemma {:induction false} ReplaceLoopErrors(d: Document, tagName: string, tagValue: Option<string>, i: nat, j: nat)
    ensures ReplaceLoop(d, tagName, tagValue, i, j).Err? ==> ReplaceLoop(d, tagName, tagValue, i, j).error.MissingListItem?
    decreases j - i
  {
    if i < j {
      var nodes := DocumentMatches(d, tagName);
      if i < |nodes| {
        MatchesExactly(d.root.value, tagName, nodes[i]);
        ReplaceLoopErrors(ReplaceStep(d, nodes[i], tagValue), tagName, tagValue, i + 1, j);
      }
    }
  }

  /** What one iteration of `replaceTagValue` does to the visited element `p`: its first
      child becomes the new text node, its later children are untouched, it loses no
      children, and it keeps its tag name and attributes. Nodes that are neither
      ancestors nor descendants of `p` do not change; ancestors keep their tag name,
      attributes and number of children. */
  lemma ReplaceStepEffect(d: Document, p: Path, tagValue: Option<string>, q: Path)
    requires DocElementAt(d, p)
    ensures
      var before := At(d.root.value, p).value;
      var after := At(ReplaceStep(d, p, tagValue).root.value, p).value;
      && after.name == before.name && after.attrs == before.attrs
      && |after.children| == (if |before.children| == 0 then 1 else |before.children|)
      && after.children[0] == Text(tagValue)
      && (|before.children| > 0 ==> after.children[1..] == before.children[1..])
    ensures !(q <= p) && !(p <= q) ==> At(ReplaceStep(d, p, tagValue).root.value, q) == At(d.root.value, q)
    ensures q < p ==>
      && ElementAt(d.root.value, q) && ElementAt(ReplaceStep(d, p, tagValue).root.value, q)
      && At(ReplaceStep(d, p, tagValue).root.value, q).value.name == At(d.root.value, q).value.name
      && At(ReplaceStep(d, p, tagValue).root.value, q).value.attrs == At(d.root.value, q).value.attrs
      && |At(ReplaceStep(d, p, tagValue).root.value, q).value.children| == |At(d.root.value, q).value.children|
  {
    var e := SetFirstChild(Text(tagValue));
    EditAtFrame(d.root.value, p, e, p);
    EditAtFrame(d.root.value, p, e, q);
  }

  /** A replace step never changes whether a node outside the subtree of the visited
      element is selected. */
  lemma ReplaceStepKeepsSelection(d: Document, p: Path, tagValue: Option<string>, tagName: string, q: Path)
    requires DocElementAt(d, p)
    requires !(p < q)
    ensures MatchAt(ReplaceStep(d, p, tagValue).root.value, q, tagName) == MatchAt(d.root.value, q, tagName)
  {
    var e := SetFirstChild(Text(tagValue));
    EditAtFrame(d.root.value, p, e, q);
    if p <= q {
      assert q == p;
      assert q[|p|..] == [];
    }
  }

  /** A selected element with no selected ancestor survives every iteration. */
  lemma {:induction false} ReplaceLoopKeepsTopmost(d: Document, tagName: string, tagValue: Option<string>, i: nat, j: nat, top: Path)
    requires d.root.Some? && MatchAt(d.root.value, top, tagName)
    requires forall q :: q < top ==> !MatchAt(d.root.value, q, tagName)
    ensures Final(ReplaceLoop(d, tagName, tagValue, i, j)).root.Some?
    ensures MatchAt(Final(ReplaceLoop(d, tagName, tagValue, i, j)).root.value, top, tagName)
    decreases j - i
  {
    if i < j {
      var nodes := DocumentMatches(d, tagName);
      if i < |nodes| {
        var p := nodes[i];
        MatchesExactly(d.root.value, tagName, p);
        var d' := ReplaceStep(d, p, tagValue);
        assert !(p < top);
        forall q | q <= top
          ensures MatchAt(d'.root.value, q, tagName) == MatchAt(d.root.value, q, tagName)
        {
          ReplaceStepKeepsSelection(d, p, tagValue, tagName, q);
        }
        ReplaceLoopKeepsTopmost(d', tagName, tagValue, i + 1, j, top);
      }
    }
  }

  // ---------------------------------------------------------------------------
  // insertTagValue

  /** `insertTagValue`: a new element `tagName` becomes the last child of the document
      element, holding one text node when `tagValue` is not null and nothing otherwise.
      Without a document element the call fails and changes nothing. */
  function InsertTagValue(d: Document, tagName: string, tagValue: Option<string>): (r: Result<Inserted>)
    ensures r.Err? <==> !HasDocumentElement(d)
    ensures r.Err? ==> r.error == NoDocumentElement && r.state == d
    ensures r.Ok? ==>
      var root := d.root.value;
      var k := |root.children|;
      && HasDocumentElement(r.value.doc)
      && r.value.at == [k]
      && r.value.doc.root.value.name == root.name
      && r.value.doc.root.value.attrs == root.attrs
      && |r.value.doc.root.value.children| == k + 1
      && r.value.doc.root.value.children[..k] == root.children
      && At(r.value.doc.root.value, [k]) == Some(Element(tagName, map[], if tagValue.Some? then [Text(tagValue)] else []))
  {
    if !HasDocumentElement(d) then Err(NoDocumentElement, d)
    else
      var root := d.root.value;
      var element := Element(tagName, map[], if tagValue.Some? then [Text(tagValue)] else []);
      var root' := Apply(root, AppendChild(element));
      assert root'.children[..|root.children|] == root.children;
      Ok(Inserted(Document(Some(root')), [|root.children|]))
  }

  /** The element `insertTagValue` creates is the last match of `tagName` in preorder,
      every earlier match stays where it was, and so the tag exists afterwards. */
  lemma InsertTagValueAddsLastMatch(d: Document, tagName: string, tagValue: Option<string>)
    requires HasDocumentElement(d)
    ensures InsertTagValue(d, tagName, tagValue).Ok?
    ensures DocumentMatches(InsertTagValue(d, tagName, tagValue).value.doc, tagName) ==
      DocumentMatches(d, tagName) + [InsertTagValue(d, tagName, tagValue).value.at]
    ensures CheckTagExists(InsertTagValue(d, tagName, tagValue).value.doc, tagName)
  {
    var root := d.root.value;
    var k := |root.children|;
    var element := Element(tagName, map[], if tagValue.Some? then [Text(tagValue)] else []);
    var root' := Apply(root, AppendChild(element));
    assert InsertTagValue(d, tagName, tagValue).value.doc.root.value == root';
    LeafMatches(element, tagName);
    AppendChildMatches(root, element, tagName);
    assert [k] + [] == [k];
    assert Prepend(k, [[]]) == [[k]];
    MatchesExactly(root', tagName, [k]);
  }

  // ---------------------------------------------------------------------------
  // insertTagInElement and insertNewTagBelow

  /** `insertTagInElement`: appends `NewTag(tagName, tagValue)` as the last child of the
      element at `at`, always with a text child, even for a null `tagValue`. */
  function InsertTagInElement(d: Document, at: Path, tagName: string, tagValue: Option<string>): (r: Inserted)
    requires DocElementAt(d, at)
    ensures
      var parent := At(d.root.value, at).value;
      var k := |parent.children|;
      && r.at == at + [k]
      && DocElementAt(r.doc, at)
      && At(r.doc.root.value, at).value.name == parent.name
      && At(r.doc.root.value, at).value.attrs == parent.attrs
      && |At(r.doc.root.value, at).value.children| == k + 1
      && At(r.doc.root.value, at).value.children[..k] == parent.children
      && At(r.doc.root.value, r.at) == Some(NewTag(tagName, tagValue))
  {
    var root := d.root.value;
    var parent := At(root, at).value;
    var e := AppendChild(NewTag(tagName, tagValue));
    var root' := EditAt(root, at, e);
    EditAtFrame(root, at, e, at);
    assert at[|at|..] == [];
    assert Apply(parent, e).children[..|parent.children|] == parent.children;
    ChildAt(root', at, |parent.children|);
    Inserted(Document(Some(root')), at + [|parent.children|])
  }

  /** Nothing outside the new element changes: every node that is not an ancestor of
      it (or the parent itself) is where it was, with the same content, and the
      parent's proper ancestors keep their tag name, attributes and number of children. */
  lemma InsertTagInElementFrame(d: Document, at: Path, tagName: string, tagValue: Option<string>, q: Path)
    requires DocElementAt(d, at)
    ensures !(q <= at) && !(InsertTagInElement(d, at, tagName, tagValue).at <= q) ==>
      At(InsertTagInElement(d, at, tagName, tagValue).doc.root.value, q) == At(d.root.value, q)
    ensures q < at ==>
      var after := InsertTagInElement(d, at, tagName, tagValue).doc.root.value;
      && ElementAt(d.root.value, q) && ElementAt(after, q)
      && At(after, q).value.name == At(d.root.value, q).value.name
      && At(after, q).value.attrs == At(d.root.value, q).value.attrs
      && |At(after, q).value.children| == |At(d.root.value, q).value.children|
  {
    var root := d.root.value;
    var parent := At(root, at).value;
    var k := |parent.children|;
    var e := AppendChild(NewTag(tagName, tagValue));
    EditAtFrame(root, at, e, q);
    if at <= q && !(q <= at) {
      var s := q[|at|..];
      assert q == at + s;
      AtConcat(root, at, s);
      assert s != [];
    }
  }

  /** The document gains exactly one element selected by `tagName`, and the new
      element's tag value is the rendered `tagValue` ("null" for a null value). */
  lemma InsertTagInElementAddsOne(d: Document, at: Path, tagName: string, tagValue: Option<string>)
    requires DocElementAt(d, at)
    ensures |DocumentMatches(InsertTagInElement(d, at, tagName, tagValue).doc, tagName)| == |DocumentMatches(d, tagName)| + 1
    ensures TagValue(NewTag(tagName, tagValue)) == Rendered(tagValue)
  {
    var root := d.root.value;
    var parent := At(root, at).value;
    var e := AppendChild(NewTag(tagName, tagValue));
    assert InsertTagInElement(d, at, tagName, tagValue).doc.root.value == EditAt(root, at, e);
    CountEditAt(root, at, e, tagName);
    CountApply(parent, e, tagName);
    var t := NewTag(tagName, tagValue);
    assert Blocks(t, tagName) == [Prepend(0, Matches(Text(tagValue), tagName))];
    assert Blocks(t, tagName) == [[]];
    assert Flatten(Blocks(t, tagName)) == [] + Flatten([]);
    assert Matches(t, tagName) == [[]];
    assert [Text(tagValue)][..0] == [];
    assert ChildValues([Text(tagValue)]) == ChildValues([]) + Rendered(NodeValue(Text(tagValue)));
  }

  /** Where `insertNewTagBelow` put the new element. */
  datatype Placement =
    | Attached(doc: Document, at: Path)      // below the first match of `appendTo`
    | Detached(doc: Document, parent: Node)  // below a new element that is never attached

  /** `insertNewTagBelow`: the new element goes below the first element selected by
      `appendTo`, in preorder. When nothing is selected, its parent is a new element
      `appendTo` that is never attached, so the document stays as it was. */
  function InsertNewTagBelow(d: Document, appendTo: string, tagName: string, tagValue: Option<string>): (r: Placement)
    ensures r.Detached? <==> !CheckTagExists(d, appendTo)
    ensures r.Detached? ==> r.doc == d && r.parent == Element(appendTo, map[], [NewTag(tagName, tagValue)])
    ensures r.Attached? ==>
      && d.root.Some? && |r.at| > 0
      && MatchAt(d.root.value, r.at[..|r.at| - 1], appendTo)
      && (forall q :: Before(q, r.at[..|r.at| - 1]) ==> !MatchAt(d.root.value, q, appendTo))
      && DocElementAt(d, r.at[..|r.at| - 1])
      && Inserted(r.doc, r.at) == InsertTagInElement(d, r.at[..|r.at| - 1], tagName, tagValue)
  {
    var nodes := DocumentMatches(d, appendTo);
    if |nodes| == 0 then
      Detached(d, Element(appendTo, map[], [NewTag(tagName, tagValue)]))
    else
      var parent := nodes[0];
      MatchesExactly(d.root.value, appendTo, parent);
      assert (forall q :: Before(q, parent) ==> !MatchAt(d.root.value, q, appendTo)) by {
        forall q | Before(q, parent)
          ensures !MatchAt(d.root.value, q, appendTo)
        {
          NothingBeforeFirstMatch(d.root.value, appendTo, q);
        }
      }
      var ins := InsertTagInElement(d, parent, tagName, tagValue);
      assert ins.at[..|ins.at| - 1] == parent;
      Attached(ins.doc, ins.at)
  }

  /** The new element is reachable from the document exactly when a parent was found:
      the document then has one more element `tagName`, and otherwise the same ones. */
  lemma InsertNewTagBelowCount(d: Document, appendTo: string, tagName: string, tagValue: Option<string>)
    ensures InsertNewTagBelow(d, appendTo, tagName, tagValue).Attached? ==>
      |DocumentMatches(InsertNewTagBelow(d, appendTo, tagName, tagValue).doc, tagName)| == |DocumentMatches(d, tagName)| + 1
    ensures InsertNewTagBelow(d, appendTo, tagName, tagValue).Detached? ==>
      DocumentMatches(InsertNewTagBelow(d, appendTo, tagName, tagValue).doc, tagName) == DocumentMatches(d, tagName)
  {
    var r := InsertNewTagBelow(d, appendTo, tagName, tagValue);
    if r.Attached? {
      InsertTagInElementAddsOne(d, r.at[..|r.at| - 1], tagName, tagValue);
    }
  }

  // ---------------------------------------------------------------------------
  // addAttributeToElement

  /** `addAttributeToElement`: sets one attribute of the element at `at`, creating it
      or overwriting its value. */
  function AddAttributeToElement(d: Document, at: Path, attributeName: string, attributeValue: string): (r: Document)
    requires DocElementAt(d, at)
    ensures DocElementAt(r, at)
    ensures
      var before := At(d.root.value, at).value;
      var after := At(r.root.value, at).value;
      && after.name == before.name && after.children == before.children
      && after.attrs.Keys == before.attrs.Keys + {attributeName}
      && after.attrs[attributeName] == attributeValue
      && forall k :: k in before.attrs && k != attributeName ==> after.attrs[k] == before.attrs[k]
  {
    var e := SetAttribute(attributeName, attributeValue);
    EditAtFrame(d.root.value, at, e, at);
    assert at[|at|..] == [];
    Document(Some(EditAt(d.root.value, at, e)))
  }

  /** Setting an attribute changes no search result and no node outside the element's
      line of ancestors and descendants; its proper ancestors keep their tag name,
      attributes and number of children. */
  lemma AddAttributeFrame(d: Document, at: Path, attributeName: string, attributeValue: string, tagName: string, q: Path)
    requires DocElementAt(d, at)
    ensures DocumentMatches(AddAttributeToElement(d, at, attributeName, attributeValue), tagName) == DocumentMatches(d, tagName)
    ensures !(q <= at) && !(at <= q) ==>
      At(AddAttributeToElement(d, at, attributeName, attributeValue).root.value, q) == At(d.root.value, q)
    ensures q < at ==>
      var after := AddAttributeToElement(d, at, attributeName, attributeValue).root.value;
      && ElementAt(d.root.value, q) && ElementAt(after, q)
      && At(after, q).value.name == At(d.root.value, q).value.name
      && At(after, q).value.attrs == At(d.root.value, q).value.attrs
      && |At(after, q).value.children| == |At(d.root.value, q).value.children|
  {
    var e := SetAttribute(attributeName, attributeValue);
    SetAttributeKeepsMatches(d.root.value, at, attributeName, attributeValue, tagName);
    EditAtFrame(d.root.value, at, e, q);
  }

  // ---------------------------------------------------------------------------
  // insertOrUpdateTagValue

  /** `insertOrUpdateTagValue`: `replaceTagValue` when the tag exists, `insertTagValue`
      otherwise (the document it returns, or its failure). Either way the tag exists afterwards, unless the document has no
      document element to insert into. */
  function InsertOrUpdateTagValue(d: Document, tagName: string, tagValue: Option<string>): (r: Result<Document>)
    ensures CheckTagExists(d, tagName) ==> r == ReplaceTagValue(d, tagName, tagValue)
    ensures !CheckTagExists(d, tagName) && HasDocumentElement(d) ==>
      InsertTagValue(d, tagName, tagValue).Ok? && r == Ok(InsertTagValue(d, tagName, tagValue).value.doc)
    ensures CheckTagExists(d, tagName) || HasDocumentElement(d) ==> CheckTagExists(Final(r), tagName)
    ensures !CheckTagExists(d, tagName) && !HasDocumentElement(d) ==> r == Err(NoDocumentElement, d)
  {
    if CheckTagExists(d, tagName) then ReplaceTagValue(d, tagName, tagValue)
    else
      match InsertTagValue(d, tagName, tagValue)
      case Ok(ins) =>
        InsertTagValueAddsLastMatch(d, tagName, tagValue);
        Ok(ins.doc)
      case Err(error, state) => Err(error, state)
  }

  /** Two calls on a document without the tag leave a single element `tagName`, the
      last child of the document element, holding only the second value. */
  lemma InsertOrUpdateTwice(d: Document, tagName: string, first: Option<string>, second: Option<string>)
    requires HasDocumentElement(d) && !CheckTagExists(d, tagName)
    ensures InsertOrUpdateTagValue(d, tagName, first).Ok?
    ensures InsertOrUpdateTagValue(InsertOrUpdateTagValue(d, tagName, first).value, tagName, second) ==
      Ok(Document(Some(d.root.value.(children := d.root.value.children + [Element(tagName, map[], [Text(second)])]))))
  {
    var root := d.root.value;
    var k := |root.children|;
    InsertTagValueAddsLastMatch(d, tagName, first);
    var d1 := InsertOrUpdateTagValue(d, tagName, first).value;
    assert d1 == InsertTagValue(d, tagName, first).value.doc;
    assert DocumentMatches(d, tagName) == [];
    assert DocumentMatches(d1, tagName) == [[k]];
    assert CheckTagExists(d1, tagName);
    var root1 := d1.root.value;
    assert root1.children == root.children + [Element(tagName, map[], if first.Some? then [Text(first)] else [])];
    var el1 := Element(tagName, map[], if first.Some? then [Text(first)] else []);
    var e := SetFirstChild(Text(second));
    assert Apply(el1, e) == Element(tagName, map[], [Text(second)]);
    assert EditAt(root1, [k], e) == root1.(children := root1.children[k := Apply(el1, e)]);
    assert root1.children[k := Apply(el1, e)] == root.children + [Element(tagName, map[], [Text(second)])];
    var d2 := ReplaceStep(d1, [k], second);
    assert d2.root.value == root.(children := root.children + [Element(tagName, map[], [Text(second)])]);
    assert ReplaceLoop(d1, tagName, second, 0, 1) == ReplaceLoop(d2, tagName, second, 1, 1);
  }

  // ---------------------------------------------------------------------------
  // deleteTag

  /** `getParentNode().removeChild(node)` for the node at `p`. The document element's
      parent is the document itself, so removing it leaves the document empty. */
  function RemoveNode(d: Document, p: Path): Document
    requires d.root.Some? && At(d.root.value, p).Some?
  {
    if p == [] then Document(None)
    else
      ParentAt(d.root.value, p);
      Document(Some(EditAt(d.root.value, p[..|p| - 1], RemoveChild(p[|p| - 1]))))
  }

  /** Iterations `i` to `j - 1` of the loop in `deleteTag`, with a live match list. */
  function DeleteLoop(d: Document, tagName: string, i: nat, j: nat): Result<Document>
    decreases j - i
  {
    if i >= j then Ok(d)
    else
      var nodes := DocumentMatches(d, tagName);
      if i >= |nodes| then Err(MissingListItem(i), d)
      else
        MatchesExactly(d.root.value, tagName, nodes[i]);
        DeleteLoop(RemoveNode(d, nodes[i]), tagName, i + 1, j)
  }

  /** `deleteTag`. */
  function DeleteTag(d: Document, tagName: string): Result<Document> {
    DeleteLoop(d, tagName, 0, |DocumentMatches(d, tagName)|)
  }

  /** One iteration of `deleteTag` removes exactly the node at `p` from its parent: the
      later siblings move up one place, nodes outside the parent's subtree do not
      change, and the parent's ancestors keep their tag name, attributes and number of
      children. */
  lemma RemoveNodeEffect(d: Document, p: Path, q: Path)
    requires d.root.Some? && At(d.root.value, p).Some? && |p| > 0
    ensures ElementAt(d.root.value, p[..|p| - 1]) && p[|p| - 1] < |At(d.root.value, p[..|p| - 1]).value.children|
    ensures
      var parent := p[..|p| - 1];
      var k := p[|p| - 1];
      var before := At(d.root.value, parent).value;
      && ElementAt(RemoveNode(d, p).root.value, parent)
      && At(RemoveNode(d, p).root.value, parent) ==
         Some(before.(children := before.children[..k] + before.children[k + 1..]))
    ensures !(q <= p[..|p| - 1]) && !(p[..|p| - 1] <= q) ==>
      At(RemoveNode(d, p).root.value, q) == At(d.root.value, q)
    ensures q < p[..|p| - 1] ==>
      && ElementAt(d.root.value, q) && ElementAt(RemoveNode(d, p).root.value, q)
      && At(RemoveNode(d, p).root.value, q).value.name == At(d.root.value, q).value.name
      && At(RemoveNode(d, p).root.value, q).value.attrs == At(d.root.value, q).value.attrs
      && |At(RemoveNode(d, p).root.value, q).value.children| == |At(d.root.value, q).value.children|
  {
    var parent := p[..|p| - 1];
    ParentAt(d.root.value, p);
    var e := RemoveChild(p[|p| - 1]);
    EditAtFrame(d.root.value, parent, e, parent);
    assert parent[|parent|..] == [];
    EditAtFrame(d.root.value, parent, e, q);
  }

  /** Removing a node removes its matches, and only those, from the document's search. */
  lemma RemoveNodeCount(d: Document, p: Path, tagName: string)
    requires d.root.Some? && At(d.root.value, p).Some?
    ensures |DocumentMatches(RemoveNode(d, p), tagName)| ==
      |DocumentMatches(d, tagName)| - |Matches(At(d.root.value, p).value, tagName)|
  {
    if p != [] {
      var root := d.root.value;
      var parent := p[..|p| - 1];
      var e := RemoveChild(p[|p| - 1]);
      ParentAt(root, p);
      CountEditAt(root, parent, e, tagName);
      CountApply(At(root, parent).value, e, tagName);
    }
  }

  /** Each iteration removes at least the node it visits from the live list, so from
      iteration 1 on the index catches up with the shrinking list: the list is at
      most `j - i` long at iteration `i`, so the index meets it by `(j + 1) / 2`. */
  lemma {:induction false} DeleteLoopFails(d: Document, tagName: string, i: nat, j: nat)
    requires 1 <= i < j
    requires |DocumentMatches(d, tagName)| <= j - i
    ensures DeleteLoop(d, tagName, i, j).Err?
    ensures DeleteLoop(d, tagName, i, j).error.MissingListItem?
    ensures i <= DeleteLoop(d, tagName, i, j).error.index
    ensures DeleteLoop(d, tagName, i, j).error.index <= i || DeleteLoop(d, tagName, i, j).error.index <= (j + 1) / 2
    decreases j - i
  {
    var nodes := DocumentMatches(d, tagName);
    if i < |nodes| {
      MatchesExactly(d.root.value, tagName, nodes[i]);
      RemoveNodeCount(d, nodes[i], tagName);
      DeleteLoopFails(RemoveNode(d, nodes[i]), tagName, i + 1, j);
    }
  }

  /** `deleteTag` as written: with no match the document is unchanged; with one match
      that element is removed and no match remains; with `j >= 2` matches the call
      always fails with a null list item, because `j` is fixed while the list shrinks.
      The failing index is at least 1 and at most `(j + 1) / 2`. */
  lemma DeleteTagOutcome(d: Document, tagName: string)
    ensures |DocumentMatches(d, tagName)| == 0 ==> DeleteTag(d, tagName) == Ok(d)
    ensures |DocumentMatches(d, tagName)| == 1 ==>
      && DeleteTag(d, tagName).Ok?
      && MatchAt(d.root.value, DocumentMatches(d, tagName)[0], tagName)
      && DeleteTag(d, tagName).value == RemoveNode(d, DocumentMatches(d, tagName)[0])
      && !CheckTagExists(DeleteTag(d, tagName).value, tagName)
    ensures |DocumentMatches(d, tagName)| >= 2 ==>
      && DeleteTag(d, tagName).Err? && DeleteTag(d, tagName).error.MissingListItem?
      && 1 <= DeleteTag(d, tagName).error.index <= (|DocumentMatches(d, tagName)| + 1) / 2
  {
    var nodes := DocumentMatches(d, tagName);
    var j := |nodes|;
    if j >= 1 {
      MatchesExactly(d.root.value, tagName, nodes[0]);
      var d' := RemoveNode(d, nodes[0]);
      RemoveNodeCount(d, nodes[0], tagName);
      if j == 1 {
        assert DeleteTag(d, tagName) == DeleteLoop(d', tagName, 1, 1);
        assert |DocumentMatches(d', tagName)| == 0;
      } else {
        DeleteLoopFails(d', tagName, 1, j);
      }
    }
  }
}

=== FILE: queries.dfy ===
/**
 The read-only operations of `XMLUtil`: `checkTagExists`, `getElements` and the
 two `getTagValue` overloads.
 */
module Queries {
  import opened Dom
  import opened Search

  /** `checkTagExists`: whether the document's search for `tagName` is non-empty. */
  function CheckTagExists(d: Document, tagName: string): (r: bool)
    ensures r <==> d.root.Some? && exists p :: MatchAt(d.root.value, p, tagName)
  {
    var ms := DocumentMatches(d, tagName);
    if d.root.None? then false
    else
      assert (forall p :: MatchAt(d.root.value, p, tagName) ==> p in ms) by {
        forall p | MatchAt(d.root.value, p, tagName)
          ensures p in ms
        {
          MatchesExactly(d.root.value, tagName, p);
        }
      }
      if |ms| > 0 then MatchesExactly(d.root.value, tagName, ms[0]); true else false
  }

  /** `getElements`: the selected proper descendants of `input` in preorder. The
      loop's node-type filter never drops anything, because the search selects
      elements only. */
  method GetElements(tagName: string, input: Node) returns (elements: seq<Node>)
    ensures |elements| == |Descendants(input, tagName)|
    ensures forall i :: 0 <= i < |elements| ==>
      At(input, Descendants(input, tagName)[i]) == Some(elements[i]) && IsMatch(elements[i], tagName)
  {
    var nodes := Descendants(input, tagName);
    var len := |nodes|;
    elements := [];
    for i := 0 to len
      invariant |elements| == i
      invariant forall k :: 0 <= k < i ==> At(input, nodes[k]) == Some(elements[k]) && IsMatch(elements[k], tagName)
    {
      DescendantsExactly(input, tagName, nodes[i]);
      var node := At(input, nodes[i]).value;
      if node.Element? {
        elements := elements + [node];
      }
    }
  }

  /** What `StringBuffer.append(String)` adds for a node value: a null value is
      written as the four characters `null`. */
  function Rendered(v: Option<string>): string {
    if v.Some? then v.value else "null"
  }

  /** The in-order concatenation of the rendered node values of `cs`. */
  function ChildValues(cs: seq<Node>): string {
    if cs == [] then "" else ChildValues(cs[..|cs| - 1]) + Rendered(NodeValue(cs[|cs| - 1]))
  }

  /** The value `getTagValue(Node)` computes: the concatenation over all children,
      not just the first, and "" for a node without children. */
  function TagValue(n: Node): string {
    if n.Element? then ChildValues(n.children) else ""
  }

  /** `getTagValue(Node)`: appends every child's node value to a buffer, in order. */
  method GetTagValueOfNode(node: Node) returns (value: string)
    ensures value == TagValue(node)
  {
    var childNodes := if node.Element? then node.children else [];
    var buffer := "";
    for j := 0 to |childNodes|
      invariant buffer == ChildValues(childNodes[..j])
    {
      assert childNodes[..j + 1][..j] == childNodes[..j];
      buffer := buffer + Rendered(NodeValue(childNodes[j]));
    }
    assert childNodes[..|childNodes|] == childNodes;
    value := buffer;
  }

  /** `getTagValue(Element, String)`: null for a null element or when no proper
      descendant is selected; otherwise the value of the first selected descendant
      in preorder. */
  function GetTagValue(element: Option<Node>, tagName: string): (r: Option<string>)
    ensures r.None? <==> element.None? || forall p :: p != [] ==> !MatchAt(element.value, p, tagName)
    ensures r.Some? ==> exists p :: (
      && p != [] && MatchAt(element.value, p, tagName)
      && r.value == TagValue(At(element.value, p).value)
      && forall q :: q != [] && Before(q, p) ==> !MatchAt(element.value, q, tagName))
  {
    if element.None? then None
    else
      var e := element.value;
      var nodes := Descendants(e, tagName);
      assert (forall p :: p != [] && MatchAt(e, p, tagName) ==> p in nodes) by {
        forall p | p != [] && MatchAt(e, p, tagName)
          ensures p in nodes
        {
          DescendantsExactly(e, tagName, p);
        }
      }
      if |nodes| <= 0 then None
      else
        var first := nodes[0];
        DescendantsExactly(e, tagName, first);
        assert (forall q :: q != [] && Before(q, first) ==> !MatchAt(e, q, tagName)) by {
          forall q | q != [] && Before(q, first)
            ensures !MatchAt(e, q, tagName)
          {
            NothingBeforeFirstDescendant(e, tagName, q);
          }
        }
        Some(TagValue(At(e, first).value))
  }

  // ---------------------------------------------------------------------------
  // Properties of the tag value

  /** One more child on the right of a split child list. */
  lemma ChildValuesConcatStep(a: seq<Node>, b: seq<Node>)
    requires b != []
    requires ChildValues(a + b[..|b| - 1]) == ChildValues(a) + ChildValues(b[..|b| - 1])
    ensures ChildValues(a + b) == ChildValues(a) + ChildValues(b)
  {
    var b' := b[..|b| - 1];
    var x := Rendered(NodeValue(b[|b| - 1]));
    assert ChildValues(a + b) == ChildValues(a + b') + x by {
      assert (a + b)[..|a + b| - 1] == a + b';
      assert (a + b)[|a + b| - 1] == b[|b| - 1];
    }
    assert ChildValues(b) == ChildValues(b') + x;
    ConcatAssoc(ChildValues(a), ChildValues(b'), x);
  }

  lemma ConcatAssoc<T>(x: seq<T>, y: seq<T>, z: seq<T>)
    ensures (x + y) + z == x + (y + z)
  {
  }

  /** The tag value is computed child by child: splitting the children splits the value. */
  lemma {:induction false} ChildValuesConcat(a: seq<Node>, b: seq<Node>)
    ensures ChildValues(a + b) == ChildValues(a) + ChildValues(b)
    decreases |b|
  {
    if b == [] {
      assert a + b == a;
    } else {
      ChildValuesConcat(a, b[..|b| - 1]);
      ChildValuesConcatStep(a, b);
    }
  }

  /** Each text child contributes its data, each element child contributes "null". */
  lemma {:induction false} ChildValuesEach(cs: seq<Node>)
    ensures ChildValues(cs) == Flatten(seq(|cs|, k requires 0 <= k < |cs| => Rendered(NodeValue(cs[k]))))
    decreases |cs|
  {
    if cs != [] {
      var parts := seq(|cs|, k requires 0 <= k < |cs| => Rendered(NodeValue(cs[k])));
      var tl := cs[1..];
      assert ChildValues(cs) == ChildValues([cs[0]]) + ChildValues(tl) by {
        ChildValuesConcat([cs[0]], tl);
        assert [cs[0]] + tl == cs;
      }
      assert ChildValues([cs[0]]) == parts[0] by {
        assert [cs[0]][..0] == [];
      }
      assert ChildValues(tl) == Flatten(parts[1..]) by {
        ChildValuesEach(tl);
        assert parts[1..] == seq(|tl|, k requires 0 <= k < |tl| => Rendered(NodeValue(tl[k])));
      }
    }
  }

  /** An element whose children are the text nodes "a", "b" and "c" has tag value
      "abc": all children are joined, with no separator. */
  lemma ThreeTextChildren()
    ensures TagValue(Element("x", map[], [Text(Some("a")), Text(Some("b")), Text(Some("c"))])) == "abc"
  {
    var a, b, c := Text(Some("a")), Text(Some("b")), Text(Some("c"));
    assert [a][..0] == [];
    assert ChildValues([a]) == "a";
    assert [a, b][..1] == [a];
    assert ChildValues([a, b]) == "ab";
    assert [a, b, c][..2] == [a, b];
    assert ChildValues([a, b, c]) == "abc";
  }

  /** An element child has a null node value, so it shows up as "null" in its parent's value. */
  lemma ElementChildReadsNull(name: string, child: Node)
    requires child.Element?
    ensures TagValue(Element(name, map[], [child])) == "null"
  {
    assert [child][..0] == [];
    assert ChildValues([child]) == Rendered(None);
  }
}

=== FILE: search.dfy ===
/**
 `getElementsByTagName` as specified by the W3C DOM Level 2 Core (section 1.2,
 `Document.getElementsByTagName` and `Element.getElementsByTagName`): the
 elements whose tag name is the given one, or all elements for `"*"`, in
 preorder (document order). The document's search includes the document element
 itself; an element's search covers its proper descendants only.

 A query result is a list of paths. Because the DOM `NodeList` is live, the
 loops of the utility re-run the query after every mutation instead of keeping
 an old list.
 */
module Search {
  import opened Dom

  /** Preorder (document order) on paths: `p` comes strictly before `q`. */
  predicate Before(p: Path, q: Path)
    decreases |p|
  {
    |q| > 0 && (|p| == 0 || p[0] < q[0] || (p[0] == q[0] && Before(p[1..], q[1..])))
  }

  predicate Sorted(ps: seq<Path>) {
    forall a, b :: 0 <= a < b < |ps| ==> Before(ps[a], ps[b])
  }

  function Prepend(k: nat, ps: seq<Path>): (r: seq<Path>)
    ensures |r| == |ps|
    ensures forall j :: 0 <= j < |ps| ==> r[j] == [k] + ps[j]
  {
    seq(|ps|, j requires 0 <= j < |ps| => [k] + ps[j])
  }

  function Flatten<T>(ss: seq<seq<T>>): seq<T> {
    if ss == [] then [] else ss[0] + Flatten(ss[1..])
  }

  function Sum(s: seq<nat>): nat {
    if s == [] then 0 else s[0] + Sum(s[1..])
  }

  /** Preorder matches in the subtree of `n`, `n` itself included. */
  function Matches(n: Node, tagName: string): seq<Path>
    decreases n, 2
  {
    (if IsMatch(n, tagName) then [[]] else []) + Descendants(n, tagName)
  }

  /** Preorder matches among the proper descendants of `n`. */
  function Descendants(n: Node, tagName: string): seq<Path>
    decreases n, 1
  {
    Flatten(Blocks(n, tagName))
  }

  /** The matches below each child, as paths from `n`. */
  function Blocks(n: Node, tagName: string): (r: seq<seq<Path>>)
    ensures |r| == (if n.Element? then |n.children| else 0)
    decreases n, 0
  {
    if n.Text? then []
    else seq(|n.children|, k requires 0 <= k < |n.children| => Prepend(k, Matches(n.children[k], tagName)))
  }

  /** `Document.getElementsByTagName`. */
  function DocumentMatches(d: Document, tagName: string): seq<Path> {
    if d.root.None? then [] else Matches(d.root.value, tagName)
  }

  // ---------------------------------------------------------------------------
  // Preorder

  lemma {:induction false} BeforeIrreflexive(p: Path)
    ensures !Before(p, p)
    decreases |p|
  {
    if |p| > 0 {
      BeforeIrreflexive(p[1..]);
    }
  }

  lemma {:induction false} BeforeAsymmetric(p: Path, q: Path)
    ensures Before(p, q) ==> !Before(q, p)
    decreases |p|
  {
    if |p| > 0 && |q| > 0 && p[0] == q[0] {
      BeforeAsymmetric(p[1..], q[1..]);
    }
  }

  /** An ancestor comes before its descendants. */
  lemma {:induction false} AncestorBefore(p: Path, q: Path)
    requires p < q
    ensures Before(p, q)
    decreases |p|
  {
    if |p| > 0 {
      assert p[0] == q[0];
      assert p[1..] < q[1..];
      AncestorBefore(p[1..], q[1..]);
    }
  }

  lemma PrependBefore(k: nat, p: Path, q: Path)
    ensures Before([k] + p, [k] + q) == Before(p, q)
  {
    assert ([k] + p)[1..] == p;
    assert ([k] + q)[1..] == q;
  }

  lemma SortedConcat(a: seq<Path>, b: seq<Path>)
    requires Sorted(a) && Sorted(b)
    requires forall x, y :: x in a && y in b ==> Before(x, y)
    ensures Sorted(a + b)
  {
    var c := a + b;
    forall i, j | 0 <= i < j < |c|
      ensures Before(c[i], c[j])
    {
      if j < |a| {
        assert c[i] == a[i] && c[j] == a[j];
      } else if i >= |a| {
        assert c[i] == b[i - |a|] && c[j] == b[j - |a|];
      } else {
        assert c[i] == a[i] && c[j] == b[j - |a|];
      }
    }
  }

  lemma PrependSorted(k: nat, ps: seq<Path>)
    requires Sorted(ps)
    ensures Sorted(Prepend(k, ps))
  {
    var r := Prepend(k, ps);
    forall i, j | 0 <= i < j < |r|
      ensures Before(r[i], r[j])
    {
      PrependBefore(k, ps[i], ps[j]);
    }
  }

  // ---------------------------------------------------------------------------
  // Flatten and Sum

  lemma {:induction false} FlattenMember<T>(ss: seq<seq<T>>, x: T)
    ensures x in Flatten(ss) <==> exists k :: 0 <= k < |ss| && x in ss[k]
  {
    if ss != [] {
      FlattenMember(ss[1..], x);
      if x in Flatten(ss[1..]) {
        var k :| 0 <= k < |ss[1..]| && x in ss[1..][k];
        assert x in ss[k + 1];
      }
      if exists k :: 0 <= k < |ss| && x in ss[k] {
        var k :| 0 <= k < |ss| && x in ss[k];
        if k > 0 {
          assert x in ss[1..][k - 1];
        }
      }
    }
  }

  lemma {:induction false} FlattenAppend<T>(ss: seq<seq<T>>, b: seq<T>)
    ensures Flatten(ss + [b]) == Flatten(ss) + b
  {
    if ss == [] {
      assert ss + [b] == [b];
    } else {
      assert (ss + [b])[1..] == ss[1..] + [b];
      FlattenAppend(ss[1..], b);
    }
  }

  lemma {:induction false} FlattenLength<T>(ss: seq<seq<T>>, lens: seq<nat>)
    requires |lens| == |ss| && forall k :: 0 <= k < |ss| ==> lens[k] == |ss[k]|
    ensures |Flatten(ss)| == Sum(lens)
  {
    if ss != [] {
      FlattenLength(ss[1..], lens[1..]);
    }
  }

  /** Concatenating blocks in order keeps them sorted when every block is sorted and
      each block lies wholly before the later ones. */
  lemma {:induction false} FlattenSorted(ss: seq<seq<Path>>)
    requires forall k :: 0 <= k < |ss| ==> Sorted(ss[k])
    requires forall k1, k2, x, y :: 0 <= k1 < k2 < |ss| && x in ss[k1] && y in ss[k2] ==> Before(x, y)
    ensures Sorted(Flatten(ss))
  {
    if ss != [] {
      var tl := ss[1..];
      forall k1, k2, x, y | 0 <= k1 < k2 < |tl| && x in tl[k1] && y in tl[k2]
        ensures Before(x, y)
      {
        assert x in ss[k1 + 1] && y in ss[k2 + 1];
      }
      FlattenSorted(tl);
      forall x, y | x in ss[0] && y in Flatten(tl)
        ensures Before(x, y)
      {
        FlattenMember(tl, y);
        var k :| 0 <= k < |tl| && y in tl[k];
        assert y in ss[k + 1];
      }
      SortedConcat(ss[0], Flatten(tl));
    }
  }

  lemma {:induction false} SumConcat(a: seq<nat>, b: seq<nat>)
    ensures Sum(a + b) == Sum(a) + Sum(b)
  {
    if a == [] {
      assert a + b == b;
    } else {
      assert (a + b)[1..] == a[1..] + b;
      SumConcat(a[1..], b);
    }
  }

  lemma {:induction false} SumUpdate(s: seq<nat>, i: nat, x: nat)
    requires i < |s|
    ensures Sum(s[i := x]) == Sum(s) - s[i] + x
  {
    var a, b := s[..i], s[i + 1..];
    assert s == (a + [s[i]]) + b;
    assert s[i := x] == (a + [x]) + b;
    SumConcat(a + [s[i]], b);
    SumConcat(a, [s[i]]);
    SumConcat(a + [x], b);
    SumConcat(a, [x]);
  }

  lemma {:induction false} SumRemove(s: seq<nat>, i: nat)
    requires i < |s|
    ensures Sum(s[..i] + s[i + 1..]) == Sum(s) - s[i]
  {
    var a, b := s[..i], s[i + 1..];
    assert s == (a + [s[i]]) + b;
    SumConcat(a + [s[i]], b);
    SumConcat(a, [s[i]]);
    SumConcat(a, b);
  }

  lemma SumAppend(s: seq<nat>, x: nat)
    ensures Sum(s + [x]) == Sum(s) + x
  {
    SumConcat(s, [x]);
  }

  // ---------------------------------------------------------------------------
  // What the search selects

  /** A path is listed exactly when it leads to a selected element. */
  lemma {:induction false} MatchesExactly(n: Node, tagName: string, p: Path)
    ensures p in Matches(n, tagName) <==> MatchAt(n, p, tagName)
    decreases n
  {
    var bs := Blocks(n, tagName);
    FlattenMember(bs, p);
    if p == [] {
    } else if n.Element? && p[0] < |n.children| {
      var k := p[0];
      var c := n.children[k];
      MatchesExactly(c, tagName, p[1..]);
      assert p == [k] + p[1..];
      if MatchAt(n, p, tagName) {
        assert p[1..] in Matches(c, tagName);
        var j :| 0 <= j < |Matches(c, tagName)| && Matches(c, tagName)[j] == p[1..];
        assert bs[k][j] == p;
      }
      if p in Matches(n, tagName) {
        assert p in Descendants(n, tagName);
        var k' :| 0 <= k' < |bs| && p in bs[k'];
        var j :| 0 <= j < |bs[k']| && bs[k'][j] == p;
        assert p[1..] == Matches(n.children[k'], tagName)[j];
      }
    }
  }

  /** An element's own search lists exactly its selected proper descendants. */
  lemma DescendantsExactly(n: Node, tagName: string, p: Path)
    ensures p in Descendants(n, tagName) <==> p != [] && MatchAt(n, p, tagName)
  {
    if p == [] {
      var bs := Blocks(n, tagName);
      FlattenMember(bs, p);
      if p in Descendants(n, tagName) {
        var k :| 0 <= k < |bs| && p in bs[k];
        BlockHead(n, tagName, k, p);
      }
    } else {
      MatchesExactly(n, tagName, p);
    }
  }

  /** Every listed path is in the block of its first index. */
  lemma BlockHead(n: Node, tagName: string, k: nat, x: Path)
    requires k < |Blocks(n, tagName)| && x in Blocks(n, tagName)[k]
    ensures |x| > 0 && x[0] == k
  {
    var j :| 0 <= j < |Blocks(n, tagName)[k]| && Blocks(n, tagName)[k][j] == x;
  }

  /** The search result is in strict preorder, hence without repetitions. */
  lemma {:induction false} MatchesSorted(n: Node, tagName: string)
    ensures Sorted(Matches(n, tagName))
    ensures Sorted(Descendants(n, tagName))
    decreases n
  {
    var bs := Blocks(n, tagName);
    forall k | 0 <= k < |bs|
      ensures Sorted(bs[k])
    {
      MatchesSorted(n.children[k], tagName);
      PrependSorted(k, Matches(n.children[k], tagName));
    }
    forall k1, k2, x, y | 0 <= k1 < k2 < |bs| && x in bs[k1] && y in bs[k2]
      ensures Before(x, y)
    {
      BlockHead(n, tagName, k1, x);
      BlockHead(n, tagName, k2, y);
    }
    FlattenSorted(bs);
    var self: seq<Path> := if IsMatch(n, tagName) then [[]] else [];
    forall x, y | x in self && y in Descendants(n, tagName)
      ensures Before(x, y)
    {
      DescendantsExactly(n, tagName, y);
    }
    SortedConcat(self, Descendants(n, tagName));
  }

  /** No selected element lies before the first match in preorder. */
  lemma NothingBeforeFirstMatch(n: Node, tagName: string, q: Path)
    requires |Matches(n, tagName)| > 0
    requires Before(q, Matches(n, tagName)[0])
    ensures !MatchAt(n, q, tagName)
  {
    var ms := Matches(n, tagName);
    if MatchAt(n, q, tagName) {
      MatchesExactly(n, tagName, q);
      var k :| 0 <= k < |ms| && ms[k] == q;
      MatchesSorted(n, tagName);
      BeforeAsymmetric(q, ms[0]);
      if k == 0 {
        BeforeIrreflexive(q);
      }
    }
  }

  /** The same for an element's own search, which does not list the element itself. */
  lemma NothingBeforeFirstDescendant(n: Node, tagName: string, q: Path)
    requires |Descendants(n, tagName)| > 0
    requires q != [] && Before(q, Descendants(n, tagName)[0])
    ensures !MatchAt(n, q, tagName)
  {
    var ds := Descendants(n, tagName);
    if MatchAt(n, q, tagName) {
      DescendantsExactly(n, tagName, q);
      var k :| 0 <= k < |ds| && ds[k] == q;
      MatchesSorted(n, tagName);
      BeforeAsymmetric(q, ds[0]);
      if k == 0 {
        BeforeIrreflexive(q);
      }
    }
  }

  /** The first match has no selected proper ancestor: it is topmost. */
  lemma FirstMatchTopmost(n: Node, tagName: string, q: Path)
    requires |Matches(n, tagName)| > 0
    requires q < Matches(n, tagName)[0]
    ensures !MatchAt(n, q, tagName)
  {
    AncestorBefore(q, Matches(n, tagName)[0]);
    NothingBeforeFirstMatch(n, tagName, q);
  }

  // ---------------------------------------------------------------------------
  // Counting matches across edits

  function Counts(cs: seq<Node>, tagName: string): (r: seq<nat>)
    ensures |r| == |cs|
  {
    seq(|cs|, k requires 0 <= k < |cs| => |Matches(cs[k], tagName)|)
  }

  lemma CountDescendants(n: Node, tagName: string)
    requires n.Element?
    ensures |Descendants(n, tagName)| == Sum(Counts(n.children, tagName))
  {
    FlattenLength(Blocks(n, tagName), Counts(n.children, tagName));
  }

  lemma CountAppendChild(n: Node, c: Node, tagName: string)
    requires Applicable(n, AppendChild(c))
    ensures |Matches(Apply(n, AppendChild(c)), tagName)| == |Matches(n, tagName)| + |Matches(c, tagName)|
  {
    var r := Apply(n, AppendChild(c));
    CountDescendants(n, tagName);
    CountDescendants(r, tagName);
    var cs := Counts(n.children, tagName);
    assert Counts(r.children, tagName) == cs + [|Matches(c, tagName)|];
    SumAppend(cs, |Matches(c, tagName)|);
  }

  lemma CountRemoveChild(n: Node, k: nat, tagName: string)
    requires Applicable(n, RemoveChild(k))
    ensures |Matches(Apply(n, RemoveChild(k)), tagName)| == |Matches(n, tagName)| - |Matches(n.children[k], tagName)|
  {
    var r := Apply(n, RemoveChild(k));
    CountDescendants(n, tagName);
    CountDescendants(r, tagName);
    var cs := Counts(n.children, tagName);
    assert Counts(r.children, tagName) == cs[..k] + cs[k + 1..];
    SumRemove(cs, k);
  }

  lemma CountSetFirstChild(n: Node, c: Node, tagName: string)
    requires Applicable(n, SetFirstChild(c))
    ensures |Matches(Apply(n, SetFirstChild(c)), tagName)| ==
      |Matches(n, tagName)| - (if |n.children| > 0 then |Matches(n.children[0], tagName)| else 0) + |Matches(c, tagName)|
  {
    var r := Apply(n, SetFirstChild(c));
    CountDescendants(n, tagName);
    CountDescendants(r, tagName);
    var cs := Counts(n.children, tagName);
    if |n.children| > 0 {
      assert Counts(r.children, tagName) == cs[0 := |Matches(c, tagName)|];
      SumUpdate(cs, 0, |Matches(c, tagName)|);
    } else {
      assert Counts(r.children, tagName) == cs + [|Matches(c, tagName)|];
      SumAppend(cs, |Matches(c, tagName)|);
    }
  }

  /** How an edit of one element changes the number of matches below it. */
  lemma CountApply(n: Node, e: Edit, tagName: string)
    requires Applicable(n, e)
    ensures e.AppendChild? ==>
      |Matches(Apply(n, e), tagName)| == |Matches(n, tagName)| + |Matches(e.child, tagName)|
    ensures e.RemoveChild? ==>
      |Matches(Apply(n, e), tagName)| == |Matches(n, tagName)| - |Matches(n.children[e.index], tagName)|
    ensures e.SetAttribute? ==> Matches(Apply(n, e), tagName) == Matches(n, tagName)
    ensures e.SetFirstChild? ==>
      |Matches(Apply(n, e), tagName)| ==
        |Matches(n, tagName)| - (if |n.children| > 0 then |Matches(n.children[0], tagName)| else 0) + |Matches(e.child, tagName)|
  {
    match e
    case AppendChild(c) => CountAppendChild(n, c, tagName);
    case RemoveChild(k) => CountRemoveChild(n, k, tagName);
    case SetAttribute(_, _) =>
      assert Apply(n, e).children == n.children;
      assert Blocks(Apply(n, e), tagName) == Blocks(n, tagName);
    case SetFirstChild(c) => CountSetFirstChild(n, c, tagName);
  }

  /** The number of matches after an edit at `p`: the edited subtree's count is
      swapped for the new one, the rest of the tree counts as before. */
  lemma {:induction false} CountEditAt(n: Node, p: Path, e: Edit, tagName: string)
    requires CanEditAt(n, p, e)
    ensures |Matches(EditAt(n, p, e), tagName)| ==
      |Matches(n, tagName)| - |Matches(At(n, p).value, tagName)| + |Matches(Apply(At(n, p).value, e), tagName)|
    decreases p
  {
    if p != [] {
      var k := p[0];
      var c := n.children[k];
      var c' := EditAt(c, p[1..], e);
      var r := EditAt(n, p, e);
      CountEditAt(c, p[1..], e, tagName);
      CountDescendants(n, tagName);
      CountDescendants(r, tagName);
      var cs := Counts(n.children, tagName);
      assert Counts(r.children, tagName) == cs[k := |Matches(c', tagName)|];
      SumUpdate(cs, k, |Matches(c', tagName)|);
    }
  }

  /** An element whose children are all text nodes has no selected descendants. */
  lemma LeafMatches(n: Node, tagName: string)
    requires n.Element? && forall k :: 0 <= k < |n.children| ==> n.children[k].Text?
    ensures Matches(n, tagName) == if IsMatch(n, tagName) then [[]] else []
  {
    var bs := Blocks(n, tagName);
    forall k | 0 <= k < |bs|
      ensures bs[k] == []
    {
      assert Matches(n.children[k], tagName) == [] + Flatten([]);
    }
    if Descendants(n, tagName) != [] {
      var x := Descendants(n, tagName)[0];
      FlattenMember(bs, x);
    }
  }

  /** Appending a child appends the child's matches, shifted under it, to the search result. */
  lemma AppendChildMatches(n: Node, c: Node, tagName: string)
    requires n.Element?
    ensures Matches(Apply(n, AppendChild(c)), tagName) ==
      Matches(n, tagName) + Prepend(|n.children|, Matches(c, tagName))
  {
    var r := Apply(n, AppendChild(c));
    var b := Prepend(|n.children|, Matches(c, tagName));
    assert Blocks(r, tagName) == Blocks(n, tagName) + [b];
    FlattenAppend(Blocks(n, tagName), b);
  }

  /** A setAttribute at `p` does not change any search result. */
  lemma {:induction false} SetAttributeKeepsMatches(n: Node, p: Path, key: string, value: string, tagName: string)
    requires ElementAt(n, p)
    ensures Matches(EditAt(n, p, SetAttribute(key, value)), tagName) == Matches(n, tagName)
    decreases p
  {
    var e := SetAttribute(key, value);
    if p == [] {
      CountApply(n, e, tagName);
    } else {
      var k := p[0];
      var r := EditAt(n, p, e);
      SetAttributeKeepsMatches(n.children[k], p[1..], key, value, tagName);
      assert Blocks(r, tagName) == Blocks(n, tagName);
    }
  }

  /** Replacing a first child that holds no match by a node that holds none changes
      no search result. */
  lemma {:induction false} SetFirstChildKeepsMatches(n: Node, p: Path, x: Node, tagName: string)
    requires ElementAt(n, p) && Matches(x, tagName) == []
    requires |At(n, p).value.children| > 0 ==> Matches(At(n, p).value.children[0], tagName) == []
    ensures Matches(EditAt(n, p, SetFirstChild(x)), tagName) == Matches(n, tagName)
    decreases p
  {
    var e := SetFirstChild(x);
    var r := EditAt(n, p, e);
    if p == [] {
      if |n.children| > 0 {
        assert Prepend(0, Matches(x, tagName)) == Prepend(0, Matches(n.children[0], tagName));
        assert Blocks(r, tagName) == Blocks(n, tagName);
      } else {
        assert Blocks(r, tagName) == [Prepend(0, Matches(x, tagName))];
        assert Flatten(Blocks(r, tagName)) == [] + Flatten([]);
      }
    } else {
      var k := p[0];
      SetFirstChildKeepsMatches(n.children[k], p[1..], x, tagName);
      assert Blocks(r, tagName) == Blocks(n, tagName);
    }
  }

  lemma {:induction false} FlattenSingletons<T>(ss: seq<seq<T>>)
    requires forall k :: 0 <= k < |ss| ==> |ss[k]| == 1
    ensures Flatten(ss) == seq(|ss|, k requires 0 <= k < |ss| => ss[k][0])
  {
    if ss != [] {
      var tl := ss[1..];
      FlattenSingletons(tl);
      var heads := seq(|ss|, k requires 0 <= k < |ss| => ss[k][0]);
      var rest := seq(|tl|, k requires 0 <= k < |tl| => tl[k][0]);
      assert heads == [ss[0][0]] + rest by {
        forall k | 0 <= k < |heads|
          ensures heads[k] == ([ss[0][0]] + rest)[k]
        {
          if k > 0 {
            assert ss[k] == tl[k - 1];
          }
        }
      }
      assert ss[0] == [ss[0][0]];
    }
  }

  /** An unselected element whose children are selected elements holding only text
      lists its children in order. */
  lemma RowOfLeaves(n: Node, tagName: string)
    requires n.Element? && !IsMatch(n, tagName)
    requires forall k :: 0 <= k < |n.children| ==>
      IsMatch(n.children[k], tagName) && forall i :: 0 <= i < |n.children[k].children| ==> n.children[k].children[i].Text?
    ensures Matches(n, tagName) == seq(|n.children|, k requires 0 <= k < |n.children| => [k])
  {
    var bs := Blocks(n, tagName);
    forall k | 0 <= k < |bs|
      ensures bs[k] == [[k]]
    {
      LeafMatches(n.children[k], tagName);
      assert [k] + [] == [k];
    }
    FlattenSingletons(bs);
    assert Matches(n, tagName) == [] + Descendants(n, tagName);
    assert seq(|bs|, k requires 0 <= k < |bs| => bs[k][0]) == seq(|n.children|, k requires 0 <= k < |n.children| => [k]);
  }
}
